=== FILE: README.md ===
# Activity window host — a Dafny model

This project models the host side of the web-activities dialog protocol. A dialog
window (the *host*) receives an activity request from the window that opened it
(the *caller*). It connects, is accepted, and finally delivers one result: `ok` with
data, `canceled`, or `failed` with the reason's text.

There are two strategies behind one lifecycle:

- **`ActivityWindowPopupHost`**: the dialog is a popup with a reference to its
  opener. It talks over window messages tagged with the `__ACTIVITIES__` sentinel.
  - `connect` resolves the request through an embedded redirect host.
  - It then starts the messenger and sends one `connect` command.
  - It races the caller's `start` command against a deadline. If the deadline wins,
    `connect` yields the redirect host instead.
  - A `close` command from the caller disconnects the host. Disconnecting closes the
    window, and a close that throws is swallowed.
- **`ActivityWindowRedirectHost`**: the dialog has no live channel back.
  - It reads the request from an object, a serialized string, or the `#__WA__=`
    parameter of its location fragment.
  - It never vouches for the caller's origin, and `ready` does nothing.
  - It delivers a result as one navigation to
    `returnUrl#__WA_RES__=<escaped JSON {requestId, origin, code, data}>`.

Both strategies share these rules:
- Accessors and `accept` fail with `not connected` until connected.
- `ready`, `result`, `cancel` and `failed` fail with `not accepted` until accepted.
- A delivered result never disconnects the host.
- Once a size container and a callback are registered, one `resized()` call yields
  one resize-complete callback `(allowed, requested, requested > allowed)`.

The implementation file `src/activity-window-host.js` is not part of this model. Its
behaviour is taken from the functional test `test/functional/activity-window-host-test.js`.
The model follows the test wherever the test speaks. Where the test is silent, the
model makes a choice, and "## Left out" lists each one.

Every transition is a pure function from a host state to a new state plus a list of
effects (`Lifecycle.Effect`), or to an error (`Base.Result`). The effects are:
- a command sent to the opener;
- a navigation;
- the messenger unsubscribing;
- a window-close attempt;
- the resize callback.

Modules:

| module | file | contents |
|---|---|---|
| `Base` | base.dfy | `Option`, `Result`, the `HostError` taxonomy, the string search `Find` |
| `Json` | json.dfy | JSON values; `ReasonText` (`String(error)`) |
| `Envelope` | envelope.dfy | requests, the opaque `Codec` and its laws, fragment parameters, URL origin, result URL |
| `Lifecycle` | lifecycle.dfy | commands, result codes and payloads, effects, guards, resize negotiation |
| `Channel` | channel.dfy | the messenger: target, caller-origin capture, inbound filtering |
| `Redirect` | redirect.dfy | `ActivityWindowRedirectHost` |
| `Popup` | popup.dfy | `ActivityWindowPopupHost` and its connect race |
| `Host` | host.dfy | the tagged handle over both strategies, and the properties shared by both |

## Model

| member | source | states |
|---|---|---|
| `Envelope.InputFormsAgree` | test/functional/activity-window-host-test.js:395-459 | A request object, its serialized string and the `#__WA__=` fragment holding its escaped serialization all resolve to that same request, given a lawful codec |
| `Envelope.ResolveRequest` | test/functional/activity-window-host-test.js:395-459 | An object input resolves to itself, a string input resolves exactly when it parses and to what it parses to, and the location input resolves exactly when the fragment's `__WA__` value decodes and parses, to that request; anything else is a malformed request |
| `Envelope.UrlOrigin` | test/functional/activity-window-host-test.js:411-418 | The origin of a URL is its prefix made of a non-empty scheme, "://" and the whole authority up to the first `/`, `?` or `#`, and there is none exactly when the URL lacks that scheme mark |
| `Envelope.OriginCharacterized` | test/functional/activity-window-host-test.js:411-418 | A string is the origin `UrlOrigin` returns if and only if it has that scheme-"://"-authority shape and ends where the authority ends |
| `Envelope.OriginExample` | test/functional/activity-window-host-test.js:411-415 | The origin of `https://example.com/opener` is `https://example.com` |
| `Envelope.OriginExamplePub` | test/functional/activity-window-host-test.js:489-490 | The origin of `https://example-pub.com/opener` is `https://example-pub.com` |
| `Envelope.ResultUrl` | test/functional/activity-window-host-test.js:479-487 | The navigation target of a result begins with the unchanged return URL |
| `Envelope.ResultUrlRoundTrip` | test/functional/activity-window-host-test.js:479-487 | The caller reading `__WA_RES__` from the result URL's fragment recovers exactly the JSON response the host encoded, provided the return URL's own fragment does not already bind that key |
| `Envelope.ResultUrlSameOrigin` | test/functional/activity-window-host-test.js:479-494 | The result navigation goes to the same origin the host reports as the caller's origin |
| `Lifecycle.CommandNamed` | test/functional/activity-window-host-test.js:205-214 | A wire command name maps to the command with that name, and an unknown name maps to no command at all |
| `Lifecycle.ResultPayloadsReadBack` | test/functional/activity-window-host-test.js:252-297 | Both wire forms of a result, `{code, data}` and `{requestId, origin, code, data}`, read back to the same code and data |
| `Json.ReasonText` | test/functional/activity-window-host-test.js:287-297 | The string form of an Error object is its name, ": " and its message, with the separator dropped when either part is empty, and any other reason is already its own string form |
| `Lifecycle.Settle` | test/functional/activity-window-host-test.js:316-348 | Settling reports at most one callback: exactly one when a burst is pending and a container and callback are set, always `(allowed, requested, requested > allowed)`, and the burst is consumed |
| `Lifecycle.ResizeBurstFiresOnce` | test/functional/activity-window-host-test.js:556-588 | A `resized()` burst with a container and callback registered fires the callback exactly once on settling, with the sizes and the overflow flag, and a second settle fires nothing |
| `Lifecycle.ResizeOverflowExamples` | test/functional/activity-window-host-test.js:316-348 | A request ten under the available size gives overflow=false; ten over gives overflow=true |
| `Channel.GetTarget` | test/functional/activity-window-host-test.js:63-66 | The messenger yields the opener exactly when it has been connected, and fails `not connected` otherwise |
| `Channel.GetTargetOrigin` | test/functional/activity-window-host-test.js:67-69 | The messenger yields the caller's origin exactly when a `start` has revealed it, and fails `not connected` otherwise |
| `Channel.Listen` | test/functional/activity-window-host-test.js:72-94 | Starting the messenger makes it listen and keeps its opener and any known caller origin |
| `Channel.Stop` | test/functional/activity-window-host-test.js:96-99 | Stopping the messenger ends its listening and keeps its opener and caller origin, and stopping a stopped messenger changes nothing |
| `Channel.SendCommand` | test/functional/activity-window-host-test.js:91-92 | A command can be sent as soon as the messenger listens, before the caller's origin is known, and the send is exactly that command and payload |
| `Channel.HandleEvent` | test/functional/activity-window-host-test.js:128-134 | A message gets through exactly when it carries the sentinel and either is the first `start` (which fixes the caller's origin) or comes from the fixed origin; an established origin is never replaced |
| `Channel.OriginCapturedOnce` | test/functional/activity-window-host-test.js:216-233 | Once the caller's origin is known, no sequence of later messages, spoofed or not, changes it |
| `Redirect.Connect` | test/functional/activity-window-host-test.js:395-414 | Connect succeeds exactly when the input resolves to a request whose return URL has an origin, and then holds that request, with that origin as the caller's, connected and not accepted; otherwise it fails as a malformed request |
| `Redirect.ConnectReportsRequest` | test/functional/activity-window-host-test.js:395-459 | After connecting from an object, a string or the fragment: request string = serialization of the request, caller origin = return URL origin, verified=false, secure=false, args = the request's args |
| `Redirect.GetRequestString` | test/functional/activity-window-host-test.js:379-381 | Answers the serialization of the held request exactly when connected, else fails `not connected` |
| `Redirect.GetTargetOrigin` | test/functional/activity-window-host-test.js:382-383 | Answers the caller's origin exactly when connected, else fails `not connected` |
| `Redirect.IsTargetOriginVerified` | test/functional/activity-window-host-test.js:384-385 | Fails `not connected` until connected, and is never true |
| `Redirect.IsSecureChannel` | test/functional/activity-window-host-test.js:416-417 | Fails `not connected` until connected, and is never true |
| `Redirect.GetArgs` | test/functional/activity-window-host-test.js:386-387 | Answers the held request's args exactly when connected, else fails `not connected` |
| `Redirect.Accept` | test/functional/activity-window-host-test.js:390-393 | Succeeds exactly when connected, leaves the host accepted and keeps its request, caller origin and invariant |
| `Redirect.Ready` | test/functional/activity-window-host-test.js:546-554 | Fails `not accepted` until accepted, and has no effect afterwards |
| `Redirect.SendResult` | test/functional/activity-window-host-test.js:510-544 | Fails `not accepted` until accepted; afterwards it performs exactly one navigation, to a URL that extends the return URL |
| `Redirect.Succeed` | test/functional/activity-window-host-test.js:510-518 | `result(data)` fails `not accepted` until accepted, then navigates exactly once, to the return URL carrying `{requestId, origin, code:'ok', data}` |
| `Redirect.Cancel` | test/functional/activity-window-host-test.js:527-534 | `cancel()` fails `not accepted` until accepted, then navigates exactly once, to the return URL carrying `{requestId, origin, code:'canceled', data:null}` |
| `Redirect.Failed` | test/functional/activity-window-host-test.js:536-544 | `failed(reason)` fails `not accepted` until accepted, then navigates exactly once, to the return URL carrying code 'failed' and the reason's string form |
| `Redirect.Disconnect` | test/functional/activity-window-host-test.js:421-425 | Clears both flags even from accepted, and emits no effect, so in particular never closes the window |
| `Redirect.ResultNavigationReadsBack` | test/functional/activity-window-host-test.js:479-544 | The single navigation goes to the caller's origin, and the caller reads from it `{requestId, origin, code, data}` with the result's code and data |
| `Popup.Connect` | test/functional/activity-window-host-test.js:72-93 | Connect succeeds exactly when the embedded redirect host resolves the input. It sends exactly one `connect` command, starts the messenger, and leaves the host unconnected, unaccepted and pending. It keeps the window, the size registration made before it (line 52) and the args |
| `Popup.NewPopupHostValid` | test/functional/activity-window-host-test.js:42-43 | A newly constructed popup host is in the state every operation keeps: unconnected, unaccepted, not listening, race not begun |
| `Popup.Deadline` | test/functional/activity-window-host-test.js:141-158 | The deadline settles a pending race on the redirect strategy and changes nothing else; it has no effect on a settled race |
| `Popup.Disconnect` | test/functional/activity-window-host-test.js:96-115 | Disconnect clears both flags, stops the messenger once and attempts one window close. The window ends up closed unless the close throws, and the race and request are kept |
| `Popup.GetTarget` | test/functional/activity-window-host-test.js:81-81 | The opener is reported once the messenger listens |
| `Popup.GetRequestString` | test/functional/activity-window-host-test.js:223-226 | Fails `not connected` until connected, then answers the serialization of the request the embedded redirect host holds |
| `Popup.GetTargetOrigin` | test/functional/activity-window-host-test.js:216-217 | Fails `not connected` until connected, then answers with the origin the messenger captured |
| `Popup.IsTargetOriginVerified` | test/functional/activity-window-host-test.js:165-166 | Fails `not connected` until connected, then is true |
| `Popup.IsSecureChannel` | test/functional/activity-window-host-test.js:216-219 | Fails `not connected` until connected, then is true |
| `Popup.GetArgs` | test/functional/activity-window-host-test.js:167-168 | Answers the `start` payload exactly when connected, else fails `not connected` |
| `Popup.Accept` | test/functional/activity-window-host-test.js:171-174 | Succeeds exactly when connected and changes only the accepted flag |
| `Popup.Ready` | test/functional/activity-window-host-test.js:299-314 | Fails `not accepted` until accepted, then sends exactly one `ready` command |
| `Popup.SendResult` | test/functional/activity-window-host-test.js:252-297 | Fails `not accepted` until accepted, then sends exactly one `result` command carrying `{code, data}` |
| `Popup.Succeed` | test/functional/activity-window-host-test.js:252-263 | `result(data)` fails `not accepted` until accepted, then sends exactly one `result` command carrying `{code:'ok', data}` |
| `Popup.Cancel` | test/functional/activity-window-host-test.js:275-285 | `cancel()` fails `not accepted` until accepted, then sends exactly one `result` command carrying `{code:'canceled', data:null}` |
| `Popup.Failed` | test/functional/activity-window-host-test.js:287-297 | `failed(reason)` fails `not accepted` until accepted, then sends exactly one `result` command carrying code 'failed' and the reason's string form |
| `Popup.RaceSettlesOnce` | test/functional/activity-window-host-test.js:117-158 | Once the connect race is settled, no later messages or deadline change its outcome |
| `Popup.ConnectBeforeStart` | test/functional/activity-window-host-test.js:72-95 | Before `start` on a fresh host: one `connect` sent, opener known, caller origin unknown, verified and args fail `not connected`, host not connected |
| `Popup.StartWinsRace` | test/functional/activity-window-host-test.js:117-139 | A sentinel `start` reaching a pending host settles the race on the popup. The host becomes connected to the message's origin, verified and secure, with the payload as args, and nothing is sent in reply |
| `Popup.ConnectThenStart` | test/functional/activity-window-host-test.js:216-226 | A fresh popup host connected with a request object and then sent `start` reports that request's serialization, the origin of the `start`, verified and secure channels, the `start` payload as args, and a race settled on the popup |
| `Popup.HandleCommand` | test/functional/activity-window-host-test.js:228-241 | A heard `start` connects the host with its payload as args, settles a pending race on the popup, sends nothing, and keeps the size registration and the window; a heard `close` is exactly `disconnect()`; any other command changes nothing |
| `Popup.HandleEvent` | test/functional/activity-window-host-test.js:128-134 | A message the messenger does not admit changes nothing; an admitted one fixes the caller's origin and is handled as its command |
| `Popup.DeadlineWinsRace` | test/functional/activity-window-host-test.js:141-158 | The deadline reaching a pending host settles on the redirect strategy, whose host is already connected |
| `Popup.LateStartAfterDeadline` | test/functional/activity-window-host-test.js:141-158 | Once the deadline has settled on the redirect strategy, a late `start` still connects the popup host but leaves the race on the redirect strategy, and a following `close` stops the messenger and closes the window |
| `Popup.CloseDisconnects` | test/functional/activity-window-host-test.js:228-241 | A `close` from the caller's origin has exactly the outcome of one `disconnect()` |
| `Popup.DisconnectAbsorbsCloseFailure` | test/functional/activity-window-host-test.js:109-115 | A throwing window close changes only whether the window ended up closed: the same flags and the same effects, and no failure |
| `Host.Resolution` | test/functional/activity-window-host-test.js:136-157 | The value `connect` settles with exists exactly when the race is settled, and is a popup handle exactly when `start` won |
| `Host.Resized` | test/functional/activity-window-host-test.js:324-325 | `resized()` sets the pending flag of the host's sizing and changes nothing else, on either strategy |
| `Host.SetSizeContainer` | test/functional/activity-window-host-test.js:365-369 | `setSizeContainer()` registers the container on either strategy and changes nothing else |
| `Host.OnResizeComplete` | test/functional/activity-window-host-test.js:316-319 | `onResizeComplete()` registers the callback on either strategy and changes nothing else |
| `Host.Settle` | test/functional/activity-window-host-test.js:564-570 | On either strategy, settling clears the pending flag and changes nothing else. It emits at most one resize-complete `(allowed, requested, requested > allowed)`, exactly when a burst was pending with container and callback registered |
| `Host.FreshHostsReportResize` | test/functional/activity-window-host-test.js:316-348 | On a fresh popup host and a fresh redirect host, registering a container and a callback, calling `resized()` and settling reports exactly `(H, H-10, false)` or `(H, H+10, true)` |
| `Host.ConnectedHostsReportResize` | test/functional/activity-window-host-test.js:316-348 | In the test's order on either strategy: the container is registered on the fresh host, then `connect(request)` succeeds (and on the popup the caller's `start` connects it), then the callback, one `resized()` and settling report exactly `(H, R, R > H)` |
| `Host.FreshHostsStaySilentUnregistered` | test/functional/activity-window-host-test.js:316-319 | A fresh host missing the container or the callback never reports a resize |
| `Host.NotConnectedGuards` | test/functional/activity-window-host-test.js:160-174 | Before connection, on both strategies, all five accessors and `accept` fail `not connected` |
| `Host.ConnectedAccessorsAnswer` | test/functional/activity-window-host-test.js:489-494 | Once connected, every accessor answers. Verified and secure are true exactly on the popup strategy, and `accept` succeeds |
| `Host.NotAcceptedGuards` | test/functional/activity-window-host-test.js:243-250 | Until accepted, on both strategies, `ready()`, `result(data)`, `cancel()` and `failed(reason)` fail `not accepted` |
| `Host.AcceptedReady` | test/functional/activity-window-host-test.js:304-314 | After accept, `ready` sends one `ready` command on the popup strategy and does nothing on the redirect strategy |
| `Host.AcceptedResultEmitsOne` | test/functional/activity-window-host-test.js:252-263 | After accept, a result emits exactly one effect and never stops the messenger or closes the window. It is one `result` command on the popup strategy and one navigation to the encoded return URL on the redirect strategy |
| `Host.TerminalCallsEmitOne` | test/functional/activity-window-host-test.js:252-297 | After accept, on either strategy, each of `result`, `cancel` and `failed` emits exactly one effect and no stop or close. That effect is the `result` command with the call's `{code, data}`, or the navigation to the return URL carrying it |
| `Host.TerminalCallPayloads` | test/functional/activity-window-host-test.js:252-297 | The test's four terminal calls carry exactly `{code:'ok', data:'abc'}`, `{code:'ok', data:null}`, `{code:'canceled', data:null}` and `{code:'failed', data:'Error: broken'}` |
| `Host.DisconnectEffects` | test/functional/activity-window-host-test.js:96-107 | Disconnect never fails and leaves the host neither connected nor accepted. The popup strategy stops the messenger once and attempts one close; the redirect strategy does neither |
| `Host.ConnectRaceOutcomes` | test/functional/activity-window-host-test.js:117-158 | From a pending popup host, `start` first yields the connected popup host; the deadline first yields the connected redirect fallback |
| `Host.ResolutionIsFinal` | test/functional/activity-window-host-test.js:141-158 | The strategy of the handle `connect` yielded never switches afterwards |

## Choices the test settles

- **When the popup sends `connect`.** One could expect the popup to send `connect`
  only after the caller's `start` arrives. The test expects the command at `connect`
  time, before any `start`, while the host is not yet connected (lines 72-93). A
  `start` sends nothing in reply: the send stub installed before `start` is called
  once in total after `result` (lines 196-197 and 252-256).
- **Verification on the popup strategy.** One could expect a channel to count as
  verified only when the message's source is a known window. The test's `start`
  events carry no source, yet the popup reports verified and secure (lines 216-219).
  The model reports both as true once connected.
- **Sending before the caller's origin is known.** One could expect the messenger to
  refuse to send before it knows the caller's identity. The `connect` command goes out
  before any `start`, so the model's `Channel.SendCommand` needs only a listening
  messenger.
- **Reconnecting after disconnect.** One could expect `disconnected` to be terminal.
  The test only checks that both flags are cleared after disconnect (lines 422-425).
  The model's redirect host drops its connection (request and caller origin) and
  allows a later connect.

## Left out

- Browser I/O becomes effect records. This covers `postMessage`, the `window.opener`
  reference, `window.close` (a `CloseWindow` effect, and `Window.closeThrows` for a
  throwing close) and navigation (`Navigate`).
- Promises, microtasks and timers become explicit events. The connect race is
  `Popup.Event`: an inbound message or `DeadlineElapsed`. The deadline's length is not
  modelled; the test advances the clock by 6000 ms. The measurement that follows
  `resized()` after the test's 100 ms clock advance is one abstract settle step.
- DOM measurement is not modelled. The available size (`innerHeight`) and the
  requested size are integer inputs of `Settle`.
- The library utilities are opaque functions in `Envelope.Codec`. These are
  `serializeRequest`, `parseRequest`, `encodeURIComponent`, `decodeURIComponent`,
  `JSON.stringify` and `JSON.parse`. Their round trips, and the fact that an escaped
  component never holds `&` or `#`, are the predicate `Envelope.Lawful`, which lemmas
  take as a precondition. `getWindowOrigin(win)` is the field `Window.origin`.
- Envelope.UrlOrigin: a simplified stand-in for the browser's URL parser, because that
  parser is not part of this model. The origin is the text before the first `/`, `?`
  or `#` after `scheme://`. There is no case folding and no default-port removal, and
  any userinfo (`user@`) stays in the origin. A return URL without `scheme://` counts as
  a malformed request.
- Envelope.LookupParam: a stand-in for the library's query-string parser, which is not
  part of this model. It takes the first `key=value` pair and does not unescape keys.
- Envelope.ResultUrl: the test pins only a return URL without a fragment, where
  `#__WA_RES__=` starts a new fragment. For a return URL that already has a fragment,
  the model appends `&__WA_RES__=` to keep that fragment; no test covers this case.
- The messenger does not check `event.source`, and the postMessage target origin is
  not modelled. The test's events carry no source.
- `getMode` is `Host.GetMode` and has no contract of its own: it maps each handle to
  its strategy's mode. `setSizeContainer` and `onResizeComplete` are `Host.SetSizeContainer`
  and `Host.OnResizeComplete`. They set registration flags in `Lifecycle.Sizing`; the
  container element and the callback function themselves are not modelled.
- Lifecycle.ResizeBurstFiresOnce: the case of several `resized()` calls before one
  settle step is a choice of the model: they merge into one callback. Every resize test
  calls `resized()` once, so the test does not show this.
- Popup.GetRequestString: promises the serialized request only under `Popup.Valid`.
  `Popup.Valid` holds for a new host (`Popup.NewPopupHostValid`). `Popup.StepKeepsValid`
  shows that every message and deadline keeps it, and the Host sizing operations keep
  it too.
- Popup.Deadline: the deadline settles the race but leaves the messenger listening.
  So a `start` after the fallback still connects the popup host, and a following
  `close` stops the messenger and closes the window even though the redirect strategy
  is in use (`Popup.LateStartAfterDeadline`). The test stops at the fallback and does
  not say what a late message should do.
- Popup.Connect: a second `connect` on a host that is already connected starts over.
  The host becomes unconnected, and a race that was settled is pending again. The test
  connects each host once.
- Json.ReasonText: a reason that is not an Error object is taken as already being its
  own string form (`Other(text)`). JavaScript's `String(42)` giving "42" and
  `String(null)` giving "null" are not modelled. The test only fails with an Error
  object.
- ResultUrlRoundTrip: promises the round trip only when the return URL's own fragment
  does not already bind `__WA_RES__`. Otherwise the caller's first-match lookup would
  find the old value. The test's return URLs have no fragment at all.
- The caller side of the protocol is not modelled beyond reading a result back
  (`Envelope.ReadResultUrl`, `Lifecycle.ReadResult`).

=== FILE: base.dfy ===
/** Failure-carrying values and a small string search shared by every part of the
    activity host model. */
module Base {

  datatype Option<+T> = None | Some(value: T)

  /** The synchronous failures a host surfaces to its immediate caller: an accessor or
      `accept` before the connection exists, a terminal action before `accept`, and a
      connect input that does not resolve to a request. */
  datatype HostError = NotConnected | NotAccepted | MalformedRequest

  datatype Result<+T> = Ok(value: T) | Err(error: HostError) {

    predicate IsFailure() {
      Err?
    }

    function PropagateFailure<U>(): Result<U>
      requires Err?
    {
      Err(error)
    }

    function Extract(): T
      requires Ok?
    {
      value
    }
  }

  /** Position of the first character of `s` that belongs to `stops`, or `|s|` when
      there is none. */
  function Find(s: string, stops: set<char>): (i: nat)
    ensures i <= |s|
    ensures i < |s| ==> s[i] in stops
    ensures forall k :: 0 <= k < i ==> s[k] !in stops
  {
    if |s| == 0 then 0
    else if s[0] in stops then 0
    else 1 + Find(s[1..], stops)
  }

  /** The three properties in `Find`'s contract pin its result down. */
  lemma FindUnique(s: string, stops: set<char>, i: nat)
    requires i <= |s|
    requires i < |s| ==> s[i] in stops
    requires forall k :: 0 <= k < i ==> s[k] !in stops
    ensures Find(s, stops) == i
  {
  }

  /** Searching a concatenation: a hit in the left part wins, otherwise the search
      continues into the right part. */
  lemma FindAppend(s: string, t: string, stops: set<char>)
    ensures Find(s, stops) < |s| ==> Find(s + t, stops) == Find(s, stops)
    ensures Find(s, stops) == |s| ==> Find(s + t, stops) == |s| + Find(t, stops)
  {
    var i := Find(s, stops);
    if i < |s| {
      FindUnique(s + t, stops, i);
    } else {
      var j := Find(t, stops);
      forall k | 0 <= k < |s| + j
        ensures (s + t)[k] !in stops
      {
        if k >= |s| {
          assert (s + t)[k] == t[k - |s|];
        }
      }
      if j < |t| {
        assert (s + t)[|s| + j] == t[j];
      }
      FindUnique(s + t, stops, |s| + j);
    }
  }

  /** A string that holds a stop character has a hit before its end. */
  lemma FindHit(s: string, stops: set<char>, k: nat)
    requires k < |s| && s[k] in stops
    ensures Find(s, stops) <= k
  {
  }
}

=== FILE: channel.dfy ===
/** The channel messenger of the popup strategy: a typed command protocol over the
    window message transport, bound to the opener window, which learns the caller's
    origin from the first `start` command and from then on only hears that origin. */
module Channel {
  import opened Base
  import opened Json
  import opened Lifecycle

  /** An opaque handle to another window (the opener). */
  datatype WindowRef = WindowRef(id: nat)

  /** The data of an inbound message: a sentinel-tagged command, or anything else the
      transport carries. */
  datatype MessageData = Tagged(sentinel: string, cmd: string, payload: Option<Json>) | Untagged

  datatype MessageEvent = MessageEvent(origin: string, data: MessageData)

  /** `target` is the opener, fixed at construction; `listening` says whether the
      messenger has been connected to a command handler (and not disconnected since);
      `targetOrigin` is the caller's origin once learnt. */
  datatype Messenger = Messenger(target: WindowRef, listening: bool, targetOrigin: Option<string>)

  function NewMessenger(target: WindowRef): Messenger {
    Messenger(target, false, None)
  }

  /** `connect(onCommand)`: starts listening. */
  function Listen(m: Messenger): (m': Messenger)
    ensures m'.listening && m'.target == m.target && m'.targetOrigin == m.targetOrigin
  {
    m.(listening := true)
  }

  /** `disconnect()`: stops listening; idempotent and never failing. */
  function Stop(m: Messenger): (m': Messenger)
    ensures !m'.listening && m'.target == m.target && m'.targetOrigin == m.targetOrigin
    ensures !m.listening ==> m' == m
  {
    m.(listening := false)
  }

  /** The opener, once the messenger is connected. */
  function GetTarget(m: Messenger): (r: Result<WindowRef>)
    ensures r.Ok? <==> m.listening
    ensures r.Ok? ==> r.value == m.target
    ensures r.Err? ==> r.error == NotConnected
  {
    if m.listening then Ok(m.target) else Err(NotConnected)
  }

  /** The caller's origin, once a `start` command has revealed it. */
  function GetTargetOrigin(m: Messenger): (r: Result<string>)
    ensures r.Ok? <==> m.targetOrigin.Some?
    ensures r.Ok? ==> m.targetOrigin == Some(r.value)
    ensures r.Err? ==> r.error == NotConnected
  {
    match m.targetOrigin
    case None => Err(NotConnected)
    case Some(origin) => Ok(origin)
  }

  /** Posting a command to the opener; the caller's origin need not be known yet. */
  function SendCommand(m: Messenger, cmd: Command, payload: Option<Json>): (r: Result<Effect>)
    ensures r.Ok? <==> m.listening
    ensures r.Ok? ==> r.value == Send(cmd, payload)
    ensures r.Err? ==> r.error == NotConnected
  {
    if m.listening then Ok(Send(cmd, payload)) else Err(NotConnected)
  }

  /** Whether the messenger hears `ev`: it listens, the message carries the sentinel,
      and it is either the first `start` (while the caller's origin is unknown) or comes
      from the caller's known origin. */
  predicate Admits(m: Messenger, ev: MessageEvent) {
    && m.listening && ev.data.Tagged? && ev.data.sentinel == Sentinel
    && (if m.targetOrigin.None? then ev.data.cmd == "start" else m.targetOrigin == Some(ev.origin))
  }

  /** Inbound filtering: a message is dropped unless the messenger listens and the
      message carries the sentinel; before the caller's origin is known only a `start`
      command is heard, and it fixes that origin; afterwards only messages from that
      origin are heard. A heard message is handed on as (command name, payload). */
  function HandleEvent(m: Messenger, ev: MessageEvent): (r: (Messenger, Option<(string, Option<Json>)>))
    ensures r.0.target == m.target && r.0.listening == m.listening
    ensures m.targetOrigin.Some? ==> r.0.targetOrigin == m.targetOrigin
    ensures r.0.targetOrigin != m.targetOrigin ==> r.1.Some? && r.1.value.0 == "start"
    ensures r.1.Some? <==> Admits(m, ev)
    ensures r.1.None? ==> r.0 == m
    ensures r.1.Some? ==> r.0 == m.(targetOrigin := Some(ev.origin))
    ensures r.1.Some? ==> r.1.value == (ev.data.cmd, ev.data.payload)
  {
    if !m.listening || !ev.data.Tagged? || ev.data.sentinel != Sentinel then (m, None)
    else if m.targetOrigin.None? then
      if ev.data.cmd == "start" then (m.(targetOrigin := Some(ev.origin)), Some((ev.data.cmd, ev.data.payload)))
      else (m, None)
    else if m.targetOrigin == Some(ev.origin) then (m, Some((ev.data.cmd, ev.data.payload)))
    else (m, None)
  }

  /** Feeding a sequence of messages. */
  function HandleAll(m: Messenger, evs: seq<MessageEvent>): Messenger
    decreases |evs|
  {
    if |evs| == 0 then m else HandleAll(HandleEvent(m, evs[0]).0, evs[1..])
  }

  /** Peer identity is captured once: after the caller's origin is known, no sequence
      of messages, spoofed or not, changes it. */
  lemma {:induction false} OriginCapturedOnce(m: Messenger, evs: seq<MessageEvent>)
    requires m.targetOrigin.Some?
    ensures HandleAll(m, evs).targetOrigin == m.targetOrigin
    decreases |evs|
  {
    if |evs| > 0 {
      OriginCapturedOnce(HandleEvent(m, evs[0]).0, evs[1..]);
    }
  }
}

=== FILE: envelope.dfy ===
/** The envelope codec: how an activity request reaches the host (as an object, as a
    serialized string, or in the `__WA__` parameter of the location fragment) and how a
    redirect host hands a result back (the `__WA_RES__` parameter appended to the return
    URL's fragment). */
module Envelope {
  import opened Base
  import opened Json

  /** An activity request. `args` is absent when the caller passed none. */
  datatype Request = Request(requestId: string, returnUrl: string, args: Option<Json>)

  /** The string utilities the host borrows from elsewhere in the library, held as
      opaque total functions: request (de)serialization, URI component escaping and
      JSON text. Their laws are `Lawful`. */
  datatype Codec = Codec(
    serializeRequest: Request -> string,
    parseRequest: string -> Option<Request>,
    encodeComponent: string -> string,
    decodeComponent: string -> string,
    stringify: Json -> string,
    parseJson: string -> Option<Json>)

  /** What the host relies on of its codec: every encoding reads back, and an escaped
      URI component never holds a parameter separator or a fragment mark. */
  ghost predicate Lawful(c: Codec) {
    && (forall r :: c.parseRequest(c.serializeRequest(r)) == Some(r))
    && (forall s :: c.decodeComponent(c.encodeComponent(s)) == s)
    && (forall s :: '&' !in c.encodeComponent(s) && '#' !in c.encodeComponent(s))
    && (forall j :: c.parseJson(c.stringify(j)) == Some(j))
  }

  /** Fragment key that carries a serialized request into a redirect host. */
  const RequestKey: string := "__WA__"

  /** Fragment key that carries the result back to the return URL. */
  const ResultKey: string := "__WA_RES__"

  /** What `connect` may be given: a request object, a serialized request, or nothing
      (the request is then read from the window's own location fragment). */
  datatype ConnectInput = FromObject(request: Request) | FromString(text: string) | FromLocation

  /** The parameter list of a location fragment: the text after its leading '#'. */
  function FragmentParams(hash: string): (p: string)
    ensures |hash| > 0 && hash[0] == '#' ==> p == hash[1..]
    ensures (|hash| == 0 || hash[0] != '#') ==> p == hash
  {
    if |hash| > 0 && hash[0] == '#' then hash[1..] else hash
  }

  /** The value of the first `key=value` pair of an '&'-separated parameter list. */
  function LookupParam(params: string, key: string): (v: Option<string>)
    ensures v.Some? ==> '&' !in v.value
    decreases |params|
  {
    var i := Find(params, {'&'});
    var pair := params[..i];
    var prefix := key + "=";
    if prefix <= pair then Some(pair[|prefix|..])
    else if i == |params| then None
    else LookupParam(params[i + 1..], key)
  }

  /** A list of one pair yields that pair's value. */
  lemma LookupSingle(key: string, v: string)
    requires '&' !in key && '&' !in v
    ensures LookupParam(key + "=" + v, key) == Some(v)
  {
    var params := key + "=" + v;
    forall k | 0 <= k < |params|
      ensures params[k] !in {'&'}
    {
      if k < |key| {
        assert params[k] == key[k];
      } else if k > |key| {
        assert params[k] == v[k - |key| - 1];
      }
    }
    FindUnique(params, {'&'}, |params|);
    assert params[..|params|] == params;
    assert (key + "=") + v == params;
  }

  /** Appending pairs never changes an earlier match; without one the lookup continues
      into the appended pairs. */
  lemma {:induction false} LookupAppend(a: string, b: string, key: string)
    ensures LookupParam(a + "&" + b, key) ==
              if LookupParam(a, key).Some? then LookupParam(a, key) else LookupParam(b, key)
    decreases |a|
  {
    var ab := a + "&" + b;
    var i := Find(a, {'&'});
    FindAppend(a, "&" + b, {'&'});
    assert ab == a + ("&" + b);
    if i < |a| {
      assert Find(ab, {'&'}) == i;
      assert ab[..i] == a[..i];
      assert ab[i + 1..] == a[i + 1..] + "&" + b;
      LookupAppend(a[i + 1..], b, key);
    } else {
      assert Find("&" + b, {'&'}) == 0;
      assert Find(ab, {'&'}) == |a|;
      assert ab[..|a|] == a;
      assert a[..i] == a;
      assert ab[|a| + 1..] == b;
    }
  }

  /** The request a connect input stands for; a string that does not parse, or a
      location fragment without a request parameter, is a malformed request. */
  function ResolveRequest(c: Codec, input: ConnectInput, locationHash: string): (r: Result<Request>)
    ensures input.FromObject? ==> r == Ok(input.request)
    ensures input.FromString? ==> (r.Ok? <==> c.parseRequest(input.text).Some?)
    ensures input.FromString? && r.Ok? ==> c.parseRequest(input.text) == Some(r.value)
    ensures input.FromLocation? ==>
              var param := LookupParam(FragmentParams(locationHash), RequestKey);
              && (r.Ok? <==> param.Some? && c.parseRequest(c.decodeComponent(param.value)).Some?)
              && (r.Ok? ==> c.parseRequest(c.decodeComponent(param.value)) == Some(r.value))
    ensures r.Err? ==> r.error == MalformedRequest
  {
    match input
    case FromObject(request) => Ok(request)
    case FromString(text) => ParseRequest(c, text)
    case FromLocation =>
      match LookupParam(FragmentParams(locationHash), RequestKey)
      case None => Err(MalformedRequest)
      case Some(encoded) => ParseRequest(c, c.decodeComponent(encoded))
  }

  function ParseRequest(c: Codec, text: string): (r: Result<Request>)
    ensures r.Err? ==> r.error == MalformedRequest
  {
    match c.parseRequest(text)
    case None => Err(MalformedRequest)
    case Some(request) => Ok(request)
  }

  /** The location fragment a caller writes to hand `request` to a redirect host. */
  function RequestFragment(c: Codec, request: Request): string {
    "#" + RequestKey + "=" + c.encodeComponent(c.serializeRequest(request))
  }

  /** All three connect inputs that carry the same request resolve to that request. */
  lemma InputFormsAgree(c: Codec, request: Request, locationHash: string)
    requires Lawful(c)
    ensures ResolveRequest(c, FromObject(request), locationHash) == Ok(request)
    ensures ResolveRequest(c, FromString(c.serializeRequest(request)), locationHash) == Ok(request)
    ensures ResolveRequest(c, FromLocation, RequestFragment(c, request)) == Ok(request)
  {
    var encoded := c.encodeComponent(c.serializeRequest(request));
    var hash := RequestFragment(c, request);
    assert FragmentParams(hash) == RequestKey + "=" + encoded;
    LookupSingle(RequestKey, encoded);
  }

  /** Characters that end a URL's scheme, and those that end its authority. */
  const SchemeStops: set<char> := {':', '/', '?', '#'}
  const AuthorityStops: set<char> := {'/', '?', '#'}

  /** `url` holds "://" at position `colon`, after a non-empty scheme. */
  predicate HasSchemeMark(url: string, colon: nat) {
    0 < colon && colon + 3 <= |url| && url[colon] == ':' && url[colon + 1] == '/' && url[colon + 2] == '/'
  }

  /** Where the authority that follows "://" at `colon` ends. */
  function AuthorityEnd(url: string, colon: nat): (end: nat)
    requires colon + 3 <= |url|
    ensures colon + 3 <= end <= |url|
    ensures forall k :: colon + 3 <= k < end ==> url[k] !in AuthorityStops
    ensures end < |url| ==> url[end] in AuthorityStops
  {
    var rest := url[colon + 3..];
    var f := Find(rest, AuthorityStops);
    assert forall k :: colon + 3 <= k < colon + 3 + f ==> url[k] == rest[k - colon - 3];
    colon + 3 + f
  }

  /** `o`, a prefix of `url`, splits at position `i` into a non-empty scheme free of
      scheme stops, "://", and an authority free of authority stops. */
  predicate SchemeSplit(url: string, o: string, i: nat) {
    && |o| <= |url|
    && 0 < i && i + 3 <= |o|
    && o[i] == ':' && o[i + 1] == '/' && o[i + 2] == '/'
    && (forall k :: 0 <= k < |o| ==> o[k] == url[k])
    && (forall k :: 0 <= k < i ==> url[k] !in SchemeStops)
    && (forall k :: i + 3 <= k < |o| ==> url[k] !in AuthorityStops)
  }

  /** `o` is the origin of `url`: scheme, "://" and the whole authority, which runs to
      the end of `url` or to the first authority stop. */
  ghost predicate IsOriginOf(url: string, o: string) {
    && (exists i: nat :: SchemeSplit(url, o, i))
    && (|o| == |url| || url[|o|] in AuthorityStops)
  }

  /** The origin (scheme, "://" and authority) of an absolute URL; None when `url` does
      not start with a scheme followed by "://". */
  function UrlOrigin(url: string): (o: Option<string>)
    ensures o.Some? ==> IsOriginOf(url, o.value)
    ensures o.Some? ==> o.value <= url && '#' !in o.value
    ensures o.None? <==> !HasSchemeMark(url, Find(url, SchemeStops))
  {
    var colon := Find(url, SchemeStops);
    if HasSchemeMark(url, colon) then
      var origin := url[..AuthorityEnd(url, colon)];
      assert SchemeSplit(url, origin, colon);
      Some(origin)
    else None
  }

  /** `UrlOrigin` finds exactly the origin `IsOriginOf` describes: any prefix shaped
      like an origin is the one it returns. */
  lemma OriginCharacterized(url: string, o: string)
    ensures IsOriginOf(url, o) <==> UrlOrigin(url) == Some(o)
  {
    if IsOriginOf(url, o) {
      var i: nat :| SchemeSplit(url, o, i);
      assert url[i] == o[i];
      FindUnique(url, SchemeStops, i);
      assert url[i + 1] == o[i + 1] && url[i + 2] == o[i + 2];
      assert HasSchemeMark(url, i);
      var rest := url[i + 3..];
      var n := |o| - i - 3;
      assert forall k :: 0 <= k < n ==> rest[k] == url[i + 3 + k];
      if n < |rest| {
        assert rest[n] == url[|o|];
      }
      FindUnique(rest, AuthorityStops, n);
      assert AuthorityEnd(url, i) == |o|;
      assert url[..|o|] == o;
    }
  }

  /** The return URLs of the connect tests yield the origins they expect. */
  lemma OriginExample()
    ensures UrlOrigin("https://example.com/opener") == Some("https://example.com")
  {
    var url, o := "https://example.com/opener", "https://example.com";
    assert SchemeSplit(url, o, 5);
    assert url[|o|] == '/';
    OriginCharacterized(url, o);
  }

  lemma OriginExamplePub()
    ensures UrlOrigin("https://example-pub.com/opener") == Some("https://example-pub.com")
  {
    var url, o := "https://example-pub.com/opener", "https://example-pub.com";
    assert SchemeSplit(url, o, 5);
    assert url[|o|] == '/';
    OriginCharacterized(url, o);
  }

  /** A return URL without "://" after its scheme has no origin. */
  lemma OriginExampleRelative()
    ensures UrlOrigin("example.com/opener") == None
  {
    FindUnique("example.com/opener", SchemeStops, 11);
  }

  /** Text after a fragment mark never moves the end of a URL's scheme. */
  lemma SchemeEndIgnoresFragment(url: string, tail: string)
    requires '#' in url || (|tail| > 0 && tail[0] == '#')
    ensures Find(url + tail, SchemeStops) == Find(url, SchemeStops)
  {
    FindAppend(url, tail, SchemeStops);
    if '#' in url {
      var k :| 0 <= k < |url| && url[k] == '#';
      FindHit(url, SchemeStops, k);
    } else {
      assert Find(tail, SchemeStops) == 0;
    }
  }

  /** ... nor whether "://" follows the scheme ... */
  lemma SchemeMarkIgnoresFragment(url: string, tail: string, colon: nat)
    requires '#' in url || (|tail| > 0 && tail[0] == '#')
    requires colon == Find(url, SchemeStops)
    ensures HasSchemeMark(url + tail, colon) == HasSchemeMark(url, colon)
  {
    var u := url + tail;
    assert forall k :: 0 <= k < |url| ==> u[k] == url[k];
    if colon + 3 > |url| {
      // A fragment mark sits where the "://" would have to be.
      if '#' in url {
        var k :| 0 <= k < |url| && url[k] == '#';
        assert colon <= k;
        assert u[k] == '#';
      } else {
        assert |u| > |url| && u[|url|] == '#';
      }
    }
  }

  /** ... nor where the authority ends. */
  lemma AuthorityEndIgnoresFragment(url: string, tail: string, colon: nat)
    requires '#' in url || (|tail| > 0 && tail[0] == '#')
    requires colon == Find(url, SchemeStops) && HasSchemeMark(url, colon)
    ensures AuthorityEnd(url + tail, colon) == AuthorityEnd(url, colon)
  {
    var u := url + tail;
    assert forall k :: 0 <= k < |url| ==> u[k] == url[k];
    var e := AuthorityEnd(url, colon);
    if '#' in url {
      var k :| 0 <= k < |url| && url[k] == '#';
      assert k >= colon + 3 by {
        assert url[colon] == ':' && url[colon + 1] == '/' && url[colon + 2] == '/';
      }
      assert e <= k;
    }
    if e < |url| {
      assert u[e] == url[e];
    } else {
      assert u[|url|] == tail[0];
    }
  }

  /** Text after a fragment mark never moves a URL's origin. */
  lemma OriginIgnoresFragment(url: string, tail: string)
    requires '#' in url || (|tail| > 0 && tail[0] == '#')
    ensures UrlOrigin(url + tail) == UrlOrigin(url)
  {
    var colon := Find(url, SchemeStops);
    SchemeEndIgnoresFragment(url, tail);
    SchemeMarkIgnoresFragment(url, tail, colon);
    if HasSchemeMark(url, colon) {
      AuthorityEndIgnoresFragment(url, tail, colon);
      var e := AuthorityEnd(url, colon);
      assert (url + tail)[..e] == url[..e];
    }
  }

  /** `url` with `param` added to its fragment: "&" and the parameter after an existing
      fragment, or a new fragment holding just the parameter. */
  function WithFragmentParam(url: string, param: string): (r: string)
    ensures url <= r
  {
    url + (if '#' in url then "&" else "#") + param
  }

  /** Where a redirect host navigates to deliver a result: the return URL with the
      `__WA_RES__` parameter, holding the escaped JSON text of `response`, added to its
      fragment. */
  function ResultUrl(c: Codec, returnUrl: string, response: Json): (url: string)
    ensures returnUrl <= url
  {
    WithFragmentParam(returnUrl, ResultKey + "=" + c.encodeComponent(c.stringify(response)))
  }

  /** The fragment of a URL: the text after its first '#', if any. */
  function Fragment(url: string): (f: Option<string>)
    ensures f.None? <==> '#' !in url
    ensures f.Some? ==> |f.value| < |url| && url[|url| - |f.value| - 1] == '#'
    ensures f.Some? ==> f.value == url[|url| - |f.value|..]
    ensures f.Some? ==> '#' !in url[..|url| - |f.value| - 1]
  {
    var hash := Find(url, {'#'});
    if hash == |url| then None
    else
      assert url[hash] == '#';
      Some(url[hash + 1..])
  }

  /** How the caller reads the result back out of the URL it is navigated to. */
  function ReadResultUrl(c: Codec, url: string): Option<Json> {
    match Fragment(url)
    case None => None
    case Some(params) =>
      match LookupParam(params, ResultKey)
      case None => None
      case Some(encoded) => c.parseJson(c.decodeComponent(encoded))
  }

  /** The result URL reaches the caller's origin: the same one the host derived from
      the return URL. */
  lemma ResultUrlSameOrigin(c: Codec, returnUrl: string, response: Json)
    ensures UrlOrigin(ResultUrl(c, returnUrl, response)) == UrlOrigin(returnUrl)
  {
    var param := ResultKey + "=" + c.encodeComponent(c.stringify(response));
    var tail := (if '#' in returnUrl then "&" else "#") + param;
    assert WithFragmentParam(returnUrl, param) == returnUrl + tail;
    OriginIgnoresFragment(returnUrl, tail);
  }

  /** The fragment after adding a parameter: the parameter alone when there was no
      fragment, else the old fragment, "&" and the parameter. */
  lemma FragmentWithParam(url: string, param: string)
    ensures '#' !in url ==> Fragment(WithFragmentParam(url, param)) == Some(param)
    ensures '#' in url ==> Fragment(WithFragmentParam(url, param)) == Some(Fragment(url).value + "&" + param)
  {
    var h := Find(url, {'#'});
    if '#' !in url {
      assert WithFragmentParam(url, param) == url + ("#" + param);
      FindAppend(url, "#" + param, {'#'});
      assert Find("#" + param, {'#'}) == 0;
      assert (url + ("#" + param))[h + 1..] == param;
    } else {
      assert WithFragmentParam(url, param) == url + ("&" + param);
      FindAppend(url, "&" + param, {'#'});
      assert (url + ("&" + param))[h + 1..] == url[h + 1..] + "&" + param;
    }
  }

  /** A caller looking up `key` in the fragment finds the value just added, provided
      the fragment did not already bind `key`. */
  lemma LookupAddedParam(url: string, key: string, value: string)
    requires '&' !in key && '&' !in value
    requires Fragment(url).Some? ==> LookupParam(Fragment(url).value, key) == None
    ensures Fragment(WithFragmentParam(url, key + "=" + value)).Some?
    ensures LookupParam(Fragment(WithFragmentParam(url, key + "=" + value)).value, key) == Some(value)
  {
    var param := key + "=" + value;
    LookupSingle(key, value);
    FragmentWithParam(url, param);
    if '#' in url {
      LookupAppend(Fragment(url).value, param, key);
    }
  }

  /** The caller recovers exactly the response the host encoded, provided the return
      URL's own fragment does not already bind `__WA_RES__`. */
  lemma ResultUrlRoundTrip(c: Codec, returnUrl: string, response: Json)
    requires Lawful(c)
    requires Fragment(returnUrl).Some? ==> LookupParam(Fragment(returnUrl).value, ResultKey) == None
    ensures ReadResultUrl(c, ResultUrl(c, returnUrl, response)) == Some(response)
  {
    var text := c.stringify(response);
    var encoded := c.encodeComponent(text);
    assert '&' !in encoded;
    LookupAddedParam(returnUrl, ResultKey, encoded);
    assert c.decodeComponent(encoded) == text;
    assert c.parseJson(text) == Some(response);
  }
}

=== FILE: host.dfy ===
/** The activity host as its users hold it: a handle on either strategy, behind one
    lifecycle (connect, the guarded accessors, accept, ready, result/cancel/failed,
    disconnect, resize). `connect` on a popup host may settle on a different strategy
    than the one it was called on, so callers dispatch on the handle it yields. */
module Host {
  import opened Base
  import opened Json
  import opened Envelope
  import opened Lifecycle
  import Channel
  import P = Popup
  import R = Redirect

  datatype Mode = PopupMode | RedirectMode

  datatype Host = PopupHandle(p: P.PopupHost) | RedirectHandle(r: R.RedirectHost)

  /** `getMode()`. */
  function GetMode(h: Host): Mode {
    match h
    case PopupHandle(_) => PopupMode
    case RedirectHandle(_) => RedirectMode
  }

  predicate Connected(h: Host) {
    match h
    case PopupHandle(p) => p.connected
    case RedirectHandle(r) => R.Connected(r)
  }

  predicate Accepted(h: Host) {
    match h
    case PopupHandle(p) => p.accepted
    case RedirectHandle(r) => R.Accepted(r)
  }

  predicate Valid(h: Host) {
    match h
    case PopupHandle(p) => P.Valid(p)
    case RedirectHandle(r) => R.Valid(r)
  }

  /** What the promise returned by a popup host's `connect` settles with: nothing
      while the race is pending, else the popup host itself or its redirect fallback. */
  function Resolution(p: P.PopupHost): (r: Option<Host>)
    ensures r.Some? <==> p.race.Settled?
    ensures r.Some? ==> (GetMode(r.value) == PopupMode <==> p.race.winner == P.PopupStrategy)
  {
    if !p.race.Settled? then None
    else if p.race.winner == P.PopupStrategy then Some(PopupHandle(p))
    else Some(RedirectHandle(p.redirect))
  }

  function GetRequestString(h: Host, c: Codec): Result<string> {
    match h
    case PopupHandle(p) => P.GetRequestString(p, c)
    case RedirectHandle(r) => R.GetRequestString(r, c)
  }

  function GetTargetOrigin(h: Host): Result<string> {
    match h
    case PopupHandle(p) => P.GetTargetOrigin(p)
    case RedirectHandle(r) => R.GetTargetOrigin(r)
  }

  function IsTargetOriginVerified(h: Host): Result<bool> {
    match h
    case PopupHandle(p) => P.IsTargetOriginVerified(p)
    case RedirectHandle(r) => R.IsTargetOriginVerified(r)
  }

  function IsSecureChannel(h: Host): Result<bool> {
    match h
    case PopupHandle(p) => P.IsSecureChannel(p)
    case RedirectHandle(r) => R.IsSecureChannel(r)
  }

  function GetArgs(h: Host): Result<Option<Json>> {
    match h
    case PopupHandle(p) => P.GetArgs(p)
    case RedirectHandle(r) => R.GetArgs(r)
  }

  function Accept(h: Host): Result<Host> {
    match h
    case PopupHandle(p) => var p' :- P.Accept(p); Ok(PopupHandle(p'))
    case RedirectHandle(r) => var r' :- R.Accept(r); Ok(RedirectHandle(r'))
  }

  function Ready(h: Host): Result<seq<Effect>> {
    match h
    case PopupHandle(p) => P.Ready(p)
    case RedirectHandle(r) => R.Ready(r)
  }

  /** `result(data)`, `cancel()` and `failed(reason)` share one path: deliver the
      corresponding activity result. */
  function SendResult(h: Host, c: Codec, result: ActivityResult): Result<seq<Effect>> {
    match h
    case PopupHandle(p) => P.SendResult(p, result)
    case RedirectHandle(r) => R.SendResult(r, c, result)
  }

  function Disconnect(h: Host): (Host, seq<Effect>) {
    match h
    case PopupHandle(p) => var (p', e) := P.Disconnect(p); (PopupHandle(p'), e)
    case RedirectHandle(r) => var (r', e) := R.Disconnect(r); (RedirectHandle(r'), e)
  }

  function SizingOf(h: Host): Lifecycle.Sizing {
    match h
    case PopupHandle(p) => p.sizing
    case RedirectHandle(r) => r.sizing
  }

  function WithSizing(h: Host, s: Lifecycle.Sizing): Host {
    match h
    case PopupHandle(p) => PopupHandle(p.(sizing := s))
    case RedirectHandle(r) => RedirectHandle(r.(sizing := s))
  }

  /** `setSizeContainer(container)`: registers the element whose size is measured. */
  function SetSizeContainer(h: Host): (h': Host)
    ensures SizingOf(h') == SizingOf(h).(hasContainer := true)
    ensures WithSizing(h', SizingOf(h)) == h
    ensures GetMode(h') == GetMode(h) && Connected(h') == Connected(h) && Accepted(h') == Accepted(h)
    ensures Valid(h) ==> Valid(h')
  {
    WithSizing(h, Lifecycle.SetSizeContainer(SizingOf(h)))
  }

  /** `onResizeComplete(callback)`: registers the resize-complete callback. */
  function OnResizeComplete(h: Host): (h': Host)
    ensures SizingOf(h') == SizingOf(h).(hasCallback := true)
    ensures WithSizing(h', SizingOf(h)) == h
    ensures GetMode(h') == GetMode(h) && Connected(h') == Connected(h) && Accepted(h') == Accepted(h)
    ensures Valid(h) ==> Valid(h')
  {
    WithSizing(h, Lifecycle.OnResizeComplete(SizingOf(h)))
  }

  /** `resized()`. */
  function Resized(h: Host): (h': Host)
    ensures SizingOf(h') == SizingOf(h).(pending := true)
    ensures WithSizing(h', SizingOf(h)) == h
    ensures GetMode(h') == GetMode(h) && Connected(h') == Connected(h) && Accepted(h') == Accepted(h)
    ensures Valid(h) ==> Valid(h')
  {
    WithSizing(h, Lifecycle.Resized(SizingOf(h)))
  }

  /** The settle step of a `resized()` burst, measuring `allowed` against `requested`. */
  function Settle(h: Host, allowed: int, requested: int): (r: (Host, seq<Effect>))
    ensures SizingOf(r.0) == SizingOf(h).(pending := false)
    ensures WithSizing(r.0, SizingOf(h)) == h
    ensures |r.1| <= 1
    ensures |r.1| == 1 <==> SizingOf(h).pending && SizingOf(h).hasContainer && SizingOf(h).hasCallback
    ensures forall e :: e in r.1 ==> e == ResizeComplete(allowed, requested, requested > allowed)
    ensures GetMode(r.0) == GetMode(h) && Connected(r.0) == Connected(h) && Accepted(r.0) == Accepted(h)
    ensures Valid(h) ==> Valid(r.0)
  {
    var (s, effects) := Lifecycle.Settle(SizingOf(h), allowed, requested);
    (WithSizing(h, s), effects)
  }

  /** The tail of every resize test: register the callback, call `resized()` once,
      and let it settle against the available size `available`. */
  function ResizeOnce(h: Host, available: int, requested: int): seq<Effect> {
    Settle(Resized(OnResizeComplete(h)), available, requested).1
  }

  /** On a fresh popup host and on a fresh redirect host with a container registered,
      a request ten under the available size reports no overflow, and ten over reports
      overflow, each exactly once. */
  lemma FreshHostsReportResize(win: Window, opener: Channel.WindowRef, available: int)
    ensures ResizeOnce(SetSizeContainer(PopupHandle(P.NewPopupHost(win, opener))), available, available - 10)
              == [ResizeComplete(available, available - 10, false)]
    ensures ResizeOnce(SetSizeContainer(PopupHandle(P.NewPopupHost(win, opener))), available, available + 10)
              == [ResizeComplete(available, available + 10, true)]
    ensures ResizeOnce(SetSizeContainer(RedirectHandle(R.NewRedirectHost(win))), available, available - 10)
              == [ResizeComplete(available, available - 10, false)]
    ensures ResizeOnce(SetSizeContainer(RedirectHandle(R.NewRedirectHost(win))), available, available + 10)
              == [ResizeComplete(available, available + 10, true)]
  {
  }

  /** The resize tests in the test's own order. The container is registered on the
      fresh host; `connect(request)` follows, and on the popup strategy the caller's
      `start`; then one resize reports exactly once, with overflow exactly when the
      request exceeds the available size. */
  lemma ConnectedHostsReportResize(win: Window, opener: Channel.WindowRef, c: Codec, request: Request,
                                   origin: string, payload: Option<Json>, available: int, requested: int)
    requires UrlOrigin(request.returnUrl).Some?
    ensures var p0 := SetSizeContainer(PopupHandle(P.NewPopupHost(win, opener))).p;
            P.Connect(p0, c, FromObject(request)).Ok?
    ensures var p0 := SetSizeContainer(PopupHandle(P.NewPopupHost(win, opener))).p;
            var p1 := P.Connect(p0, c, FromObject(request)).value.0;
            var p2 := P.HandleEvent(p1, Channel.MessageEvent(origin, Channel.Tagged(Sentinel, "start", payload))).0;
            && p2.connected
            && ResizeOnce(PopupHandle(p2), available, requested)
                 == [ResizeComplete(available, requested, requested > available)]
    ensures var r0 := SetSizeContainer(RedirectHandle(R.NewRedirectHost(win))).r;
            R.Connect(r0, c, FromObject(request)).Ok?
    ensures var r0 := SetSizeContainer(RedirectHandle(R.NewRedirectHost(win))).r;
            var r1 := R.Connect(r0, c, FromObject(request)).value;
            && R.Connected(r1)
            && ResizeOnce(RedirectHandle(r1), available, requested)
                 == [ResizeComplete(available, requested, requested > available)]
  {
    var p0 := SetSizeContainer(PopupHandle(P.NewPopupHost(win, opener))).p;
    P.ConnectThenStart(win, opener, c, request, origin, payload);
    var p1 := P.Connect(p0, c, FromObject(request)).value.0;
    assert p1.sizing.hasContainer;
    var p2 := P.HandleEvent(p1, Channel.MessageEvent(origin, Channel.Tagged(Sentinel, "start", payload))).0;
    assert p2.sizing == p1.sizing;
  }

  /** Without a registered container or callback, a fresh host never reports. */
  lemma FreshHostsStaySilentUnregistered(win: Window, opener: Channel.WindowRef, allowed: int, requested: int)
    ensures Settle(Resized(PopupHandle(P.NewPopupHost(win, opener))), allowed, requested).1 == []
    ensures Settle(Resized(OnResizeComplete(RedirectHandle(R.NewRedirectHost(win)))), allowed, requested).1 == []
    ensures Settle(Resized(SetSizeContainer(RedirectHandle(R.NewRedirectHost(win)))), allowed, requested).1 == []
  {
  }

  /** Before a connection exists, on either strategy, every accessor and `accept`
      fail with `not connected`. */
  lemma NotConnectedGuards(h: Host, c: Codec)
    requires !Connected(h)
    ensures GetRequestString(h, c) == Err(NotConnected)
    ensures GetTargetOrigin(h) == Err(NotConnected)
    ensures IsTargetOriginVerified(h) == Err(NotConnected)
    ensures IsSecureChannel(h) == Err(NotConnected)
    ensures GetArgs(h) == Err(NotConnected)
    ensures Accept(h) == Err(NotConnected)
  {
  }

  /** Once connected, every accessor answers and `accept` succeeds, leaving the host
      accepted: the converse of `NotConnectedGuards`. */
  lemma ConnectedAccessorsAnswer(h: Host, c: Codec)
    requires Valid(h) && Connected(h)
    ensures GetRequestString(h, c).Ok? && GetTargetOrigin(h).Ok? && GetArgs(h).Ok?
    ensures IsTargetOriginVerified(h).Ok? && IsSecureChannel(h).Ok?
    ensures IsTargetOriginVerified(h).value == IsSecureChannel(h).value == (GetMode(h) == PopupMode)
    ensures Accept(h).Ok? && Accepted(Accept(h).value) && Valid(Accept(h).value)
    ensures GetMode(Accept(h).value) == GetMode(h)
  {
  }

  /** Until `accept`, on either strategy, `ready`, `result`, `cancel` and `failed` all
      fail with `not accepted` (and so emit nothing). */
  lemma NotAcceptedGuards(h: Host, c: Codec, data: Json, reason: Reason)
    requires !Accepted(h)
    ensures Ready(h) == Err(NotAccepted)
    ensures Succeed(h, c, data) == Err(NotAccepted)
    ensures Cancel(h, c) == Err(NotAccepted)
    ensures Failed(h, c, reason) == Err(NotAccepted)
  {
  }

  /** After `accept`, `ready` sends one `ready` command on the popup strategy and does
      nothing on the redirect strategy. */
  lemma AcceptedReady(h: Host)
    requires Valid(h) && Accepted(h)
    ensures GetMode(h) == PopupMode ==> Ready(h) == Ok([Send(ReadyCmd, None)])
    ensures GetMode(h) == RedirectMode ==> Ready(h) == Ok([])
  {
  }

  /** After `accept`, delivering a result emits exactly one effect and never
      disconnects or closes: on the popup strategy one `result` command whose payload
      reads back as the result; on the redirect strategy one navigation to the return
      URL that reads back as `{requestId, origin, code, data}`. */
  lemma AcceptedResultEmitsOne(h: Host, c: Codec, result: ActivityResult)
    requires Valid(h) && Accepted(h)
    ensures SendResult(h, c, result).Ok?
    ensures |SendResult(h, c, result).value| == 1
    ensures StopListening !in SendResult(h, c, result).value
    ensures CloseWindow !in SendResult(h, c, result).value
    ensures h.PopupHandle? ==>
              && SendResult(h, c, result).value == [Send(ResultCmd, Some(ResultPayload(result)))]
              && ReadResult(ResultPayload(result)) == Some(result)
    ensures h.RedirectHandle? ==>
              var request := h.r.link.value.request;
              SendResult(h, c, result).value
                == [Navigate(ResultUrl(c, request.returnUrl, ResponsePayload(request.requestId, h.r.win.origin, result)))]
  {
    ResultPayloadsReadBack(result, "", "");
  }

  /** The payloads the terminal calls of the tests deliver: `result('abc')` and
      `result(null)` carry their data under code 'ok', `cancel()` carries null under
      'canceled', and `failed(new Error('broken'))` carries "Error: broken" under
      'failed'. */
  lemma TerminalCallPayloads()
    ensures ResultPayload(OkResult(JStr("abc"))) == JObj([("code", JStr("ok")), ("data", JStr("abc"))])
    ensures ResultPayload(OkResult(JNull)) == JObj([("code", JStr("ok")), ("data", JNull)])
    ensures ResultPayload(CanceledResult()) == JObj([("code", JStr("canceled")), ("data", JNull)])
    ensures ResultPayload(FailedResult(ErrorObject("Error", "broken")))
              == JObj([("code", JStr("failed")), ("data", JStr("Error: broken"))])
  {
    assert ReasonText(ErrorObject("Error", "broken")) == "Error: broken";
  }

  /** `result(data)`, `cancel()` and `failed(reason)` on either strategy. */
  function Succeed(h: Host, c: Codec, data: Json): Result<seq<Effect>> {
    match h
    case PopupHandle(p) => P.Succeed(p, data)
    case RedirectHandle(r) => R.Succeed(r, c, data)
  }

  function Cancel(h: Host, c: Codec): Result<seq<Effect>> {
    match h
    case PopupHandle(p) => P.Cancel(p)
    case RedirectHandle(r) => R.Cancel(r, c)
  }

  function Failed(h: Host, c: Codec, reason: Reason): Result<seq<Effect>> {
    match h
    case PopupHandle(p) => P.Failed(p, reason)
    case RedirectHandle(r) => R.Failed(r, c, reason)
  }

  /** After `accept`, each of `result`, `cancel` and `failed` emits exactly one effect
      and never stops the messenger or closes the window. On the popup strategy it is a
      `result` command with `{code, data}`; on the redirect strategy it is a navigation
      to the return URL carrying `{requestId, origin, code, data}`. */
  lemma TerminalCallsEmitOne(h: Host, c: Codec, data: Json, reason: Reason)
    requires Valid(h) && Accepted(h)
    ensures var calls := [Succeed(h, c, data), Cancel(h, c), Failed(h, c, reason)];
            forall i | 0 <= i < 3 ::
              && calls[i].Ok? && |calls[i].value| == 1
              && StopListening !in calls[i].value && CloseWindow !in calls[i].value
    ensures h.PopupHandle? ==>
              && Succeed(h, c, data) == Ok([Send(ResultCmd, Some(JObj([("code", JStr("ok")), ("data", data)])))])
              && Cancel(h, c) == Ok([Send(ResultCmd, Some(JObj([("code", JStr("canceled")), ("data", JNull)])))])
              && Failed(h, c, reason)
                   == Ok([Send(ResultCmd, Some(JObj([("code", JStr("failed")), ("data", JStr(ReasonText(reason)))])))])
    ensures h.RedirectHandle? ==>
              && Succeed(h, c, data) == Ok([Navigate(R.ExpectedReturnUrl(h.r, c, "ok", data))])
              && Cancel(h, c) == Ok([Navigate(R.ExpectedReturnUrl(h.r, c, "canceled", JNull))])
              && Failed(h, c, reason) == Ok([Navigate(R.ExpectedReturnUrl(h.r, c, "failed", JStr(ReasonText(reason))))])
  {
  }

  /** `disconnect()` never fails and leaves either strategy neither connected nor
      accepted. The popup host stops its messenger and attempts to close the window
      exactly once; the redirect host does neither. */
  lemma DisconnectEffects(h: Host)
    ensures !Connected(Disconnect(h).0) && !Accepted(Disconnect(h).0)
    ensures GetMode(Disconnect(h).0) == GetMode(h)
    ensures Valid(h) ==> Valid(Disconnect(h).0)
    ensures multiset(Disconnect(h).1)[CloseWindow] == (if GetMode(h) == PopupMode then 1 else 0)
    ensures multiset(Disconnect(h).1)[StopListening] == (if GetMode(h) == PopupMode then 1 else 0)
    ensures |Disconnect(h).1| == (if GetMode(h) == PopupMode then 2 else 0)
  {
  }

  /** The connect race from a pending popup host has exactly one outcome. A `start`
      arriving first makes `connect` yield the popup host itself, connected; the
      deadline arriving first makes it yield the redirect fallback, connected too. */
  lemma ConnectRaceOutcomes(p: P.PopupHost, origin: string, payload: Option<Json>)
    requires P.Valid(p) && p.race == P.Pending && p.messenger.listening && p.messenger.targetOrigin.None?
    ensures var p' := P.HandleEvent(p, Channel.MessageEvent(origin, Channel.Tagged(Sentinel, "start", payload))).0;
            && Resolution(p') == Some(PopupHandle(p'))
            && Connected(PopupHandle(p')) && Valid(PopupHandle(p'))
    ensures Resolution(P.Deadline(p)) == Some(RedirectHandle(p.redirect))
    ensures Connected(RedirectHandle(p.redirect)) && Valid(RedirectHandle(p.redirect))
  {
    P.StartWinsRace(p, origin, payload);
    P.DeadlineWinsRace(p);
  }

  /** Whatever happens after the race settles, the handle `connect` yielded keeps its
      strategy: a late `start`, a `close`, or a late deadline never switch it. */
  lemma {:induction false} ResolutionIsFinal(p: P.PopupHost, es: seq<P.Event>)
    requires p.race.Settled?
    ensures Resolution(P.Run(p, es)).Some?
    ensures GetMode(Resolution(P.Run(p, es)).value) == GetMode(Resolution(p).value)
  {
    P.RaceSettlesOnce(p, es);
  }
}

=== FILE: json.dfy ===
/** JSON-shaped values carried as request args, command payloads and result data, and
    the string form of a failure reason. */
module Json {

  datatype Json =
    | JNull
    | JBool(b: bool)
    | JNum(n: int)
    | JStr(s: string)
    | JArr(items: seq<Json>)
    | JObj(fields: seq<(string, Json)>)

  /** A value handed to `failed`: a thrown Error object, or any other value already in
      its string form. */
  datatype Reason = ErrorObject(name: string, message: string) | Other(text: string)

  /** `String(reason)`: for an Error object, Error.prototype.toString of ECMA-262 (the
      name, then ": " and the message, either part dropped when empty). */
  function ReasonText(r: Reason): (t: string)
    ensures r.Other? ==> t == r.text
    ensures r.ErrorObject? ==> r.name <= t
    ensures r.ErrorObject? ==> |r.message| <= |t| && t[|t| - |r.message|..] == r.message
    ensures r.ErrorObject? && r.name != "" && r.message != "" ==> t == r.name + ": " + r.message
    ensures r.ErrorObject? && r.name == "" ==> t == r.message
    ensures r.ErrorObject? && r.message == "" ==> t == r.name
  {
    match r
    case Other(text) => text
    case ErrorObject(name, message) =>
      if name == "" then message
      else if message == "" then name
      else name + ": " + message
  }
}

=== FILE: lifecycle.dfy ===
/** What both host strategies share: the command vocabulary, the result codes and
    payloads, the effects a transition emits, the connection guards, and the
    resize-complete negotiation. */
module Lifecycle {
  import opened Base
  import opened Json

  /** Marker carried by every command envelope on the direct channel. */
  const Sentinel: string := "__ACTIVITIES__"

  /** Commands of the direct channel: `start` and `close` flow caller to host, the
      others host to caller. */
  datatype Command = StartCmd | ConnectCmd | ReadyCmd | ResultCmd | CloseCmd

  /** A command's name on the wire. */
  function CommandName(c: Command): string {
    match c
    case StartCmd => "start"
    case ConnectCmd => "connect"
    case ReadyCmd => "ready"
    case ResultCmd => "result"
    case CloseCmd => "close"
  }

  /** The command a wire name stands for; unknown names stand for none. */
  function CommandNamed(name: string): (c: Option<Command>)
    ensures c.Some? ==> CommandName(c.value) == name
    ensures c.None? ==> forall cmd: Command :: CommandName(cmd) != name
  {
    if name == "start" then Some(StartCmd)
    else if name == "connect" then Some(ConnectCmd)
    else if name == "ready" then Some(ReadyCmd)
    else if name == "result" then Some(ResultCmd)
    else if name == "close" then Some(CloseCmd)
    else None
  }

  datatype Code = CodeOk | CodeCanceled | CodeFailed

  function CodeName(code: Code): string {
    match code
    case CodeOk => "ok"
    case CodeCanceled => "canceled"
    case CodeFailed => "failed"
  }

  /** The terminal outcome of an activity. */
  datatype ActivityResult = ActivityResult(code: Code, data: Json)

  /** `result(data)`: success carries the data as given, null included. */
  function OkResult(data: Json): ActivityResult {
    ActivityResult(CodeOk, data)
  }

  /** `cancel()`: a cancellation always carries null. */
  function CanceledResult(): ActivityResult {
    ActivityResult(CodeCanceled, JNull)
  }

  /** `failed(reason)`: a failure carries the reason's string form. */
  function FailedResult(reason: Reason): ActivityResult {
    ActivityResult(CodeFailed, JStr(ReasonText(reason)))
  }

  /** The payload of a `result` command: `{code, data}`. */
  function ResultPayload(r: ActivityResult): Json {
    JObj([("code", JStr(CodeName(r.code))), ("data", r.data)])
  }

  /** The response a redirect host encodes into the return URL:
      `{requestId, origin, code, data}`. */
  function ResponsePayload(requestId: string, origin: string, r: ActivityResult): Json {
    JObj([("requestId", JStr(requestId)), ("origin", JStr(origin)),
          ("code", JStr(CodeName(r.code))), ("data", r.data)])
  }

  /** The code and data of a result read back from a response or a command payload. */
  function ReadResult(payload: Json): (r: Option<ActivityResult>) {
    if !payload.JObj? then None
    else
      var fields := payload.fields;
      var n := |fields|;
      if n < 2 || fields[n - 2].0 != "code" || fields[n - 1].0 != "data" || !fields[n - 2].1.JStr? then None
      else
        var name := fields[n - 2].1.s;
        var data := fields[n - 1].1;
        if name == "ok" then Some(ActivityResult(CodeOk, data))
        else if name == "canceled" then Some(ActivityResult(CodeCanceled, data))
        else if name == "failed" then Some(ActivityResult(CodeFailed, data))
        else None
  }

  /** Both wire forms of a result carry its code and data back unchanged. */
  lemma ResultPayloadsReadBack(r: ActivityResult, requestId: string, origin: string)
    ensures ReadResult(ResultPayload(r)) == Some(r)
    ensures ReadResult(ResponsePayload(requestId, origin, r)) == Some(r)
  {
  }

  /** A window as the host sees it: its own origin, its location fragment, and whether
      `window.close()` throws there. */
  datatype Window = Window(origin: string, locationHash: string, closeThrows: bool)

  /** What a transition does outside the host: a command posted to the caller, a
      navigation, the messenger unsubscribing, an attempt to close the window, or the
      resize-complete callback firing. */
  datatype Effect =
    | Send(cmd: Command, payload: Option<Json>)
    | Navigate(url: string)
    | StopListening
    | CloseWindow
    | ResizeComplete(allowed: int, requested: int, overflow: bool)

  /** Resize negotiation: whether a size container and a resize-complete callback are
      registered, and whether a `resized()` burst awaits its settle step. */
  datatype Sizing = Sizing(hasContainer: bool, hasCallback: bool, pending: bool)

  const NoSizing: Sizing := Sizing(false, false, false)

  function SetSizeContainer(s: Sizing): Sizing {
    s.(hasContainer := true)
  }

  function OnResizeComplete(s: Sizing): Sizing {
    s.(hasCallback := true)
  }

  /** `resized()`: schedules a measurement. Repeated calls before it settles coalesce. */
  function Resized(s: Sizing): (s': Sizing)
    ensures s'.pending
    ensures s'.hasContainer == s.hasContainer && s'.hasCallback == s.hasCallback
  {
    s.(pending := true)
  }

  /** The debounced measurement: with `allowed` the space available and `requested` the
      size the content asks for, a pending burst reports both and whether the content
      overflows, once. */
  function Settle(s: Sizing, allowed: int, requested: int): (r: (Sizing, seq<Effect>))
    ensures !r.0.pending
    ensures r.0.hasContainer == s.hasContainer && r.0.hasCallback == s.hasCallback
    ensures |r.1| <= 1
    ensures |r.1| == 1 <==> s.pending && s.hasContainer && s.hasCallback
    ensures forall e :: e in r.1 ==> e == ResizeComplete(allowed, requested, requested > allowed)
  {
    var fire := s.pending && s.hasContainer && s.hasCallback;
    (s.(pending := false), if fire then [ResizeComplete(allowed, requested, allowed < requested)] else [])
  }

  /** `n` calls to `resized()` in a row. */
  function ResizedTimes(s: Sizing, n: nat): Sizing
    decreases n
  {
    if n == 0 then s else Resized(ResizedTimes(s, n - 1))
  }

  /** A burst of one or more `resized()` calls, once it settles, fires the callback
      exactly once with the available size, the requested size and whether the request
      exceeds the space; a second settle fires nothing. */
  lemma {:induction false} ResizeBurstFiresOnce(s: Sizing, n: nat, allowed: int, requested: int, allowed': int, requested': int)
    requires n >= 1 && s.hasContainer && s.hasCallback
    ensures Settle(ResizedTimes(s, n), allowed, requested).1
              == [ResizeComplete(allowed, requested, requested > allowed)]
    ensures Settle(Settle(ResizedTimes(s, n), allowed, requested).0, allowed', requested').1 == []
  {
    var b := ResizedTimes(s, n);
    assert b == Resized(ResizedTimes(s, n - 1));
    assert b.pending && b.hasContainer && b.hasCallback by {
      ResizedKeepsRegistration(s, n - 1);
    }
  }

  lemma {:induction false} ResizedKeepsRegistration(s: Sizing, n: nat)
    ensures ResizedTimes(s, n).hasContainer == s.hasContainer
    ensures ResizedTimes(s, n).hasCallback == s.hasCallback
    decreases n
  {
    if n > 0 {
      ResizedKeepsRegistration(s, n - 1);
    }
  }

  /** The two sizes the resize tests use: a request ten units under the available
      space does not overflow, ten over does. */
  lemma ResizeOverflowExamples(s: Sizing, h: int)
    requires s.hasContainer && s.hasCallback
    ensures Settle(Resized(s), h, h - 10).1 == [ResizeComplete(h, h - 10, false)]
    ensures Settle(Resized(s), h, h + 10).1 == [ResizeComplete(h, h + 10, true)]
  {
  }
}

=== FILE: popup.dfy ===
/** The popup host: the strategy for a dialog opened as a popup that holds a reference
    to its opener. `connect` resolves the request through an embedded redirect host,
    starts the messenger and announces itself with a `connect` command; it then races
    the caller's `start` command against a deadline, and falls back to the embedded
    redirect host when the deadline wins. */
module Popup {
  import opened Base
  import opened Json
  import opened Envelope
  import opened Lifecycle
  import opened Channel
  import R = Redirect

  datatype Strategy = PopupStrategy | RedirectStrategy

  /** The connect race: not begun, waiting for `start` or the deadline, or settled on
      the strategy `connect` resolves to. */
  datatype Race = Idle | Pending | Settled(winner: Strategy)

  datatype PopupHost = PopupHost(
    win: Window,
    messenger: Messenger,
    redirect: R.RedirectHost,
    args: Option<Json>,
    connected: bool,
    accepted: bool,
    race: Race,
    windowClosed: bool,
    sizing: Sizing)

  /** A popup host for `win`, whose opener is `opener`. */
  function NewPopupHost(win: Window, opener: WindowRef): PopupHost {
    PopupHost(win, NewMessenger(opener), R.NewRedirectHost(win), None, false, false, Idle, false, NoSizing)
  }

  /** A new popup host starts in a state the operations below keep. */
  lemma NewPopupHostValid(win: Window, opener: WindowRef)
    ensures Valid(NewPopupHost(win, opener))
  {
  }

  /** The states the operations below keep: acceptance needs a connection; a
      connection needs a listening messenger that knows the caller's origin; the
      messenger listens only once the race has begun; and from then on the fallback
      host is connected. */
  predicate Valid(h: PopupHost) {
    && (h.accepted ==> h.connected)
    && (h.connected ==> h.messenger.listening && h.messenger.targetOrigin.Some?)
    && (h.messenger.listening ==> h.race != Idle)
    && (h.connected || h.race != Idle ==> R.Connected(h.redirect))
    && R.Valid(h.redirect)
  }

  /** `connect(input)`: the embedded redirect host resolves the request (a malformed
      input fails the whole connect, with nothing sent); then the messenger starts
      listening and one `connect` command goes to the opener, while the host itself is
      not yet connected and the race is pending. */
  function Connect(h: PopupHost, c: Codec, input: ConnectInput): (r: Result<(PopupHost, seq<Effect>)>)
    ensures r.Ok? <==> R.Connect(h.redirect, c, input).Ok?
    ensures r.Err? ==> r.error == MalformedRequest
    ensures r.Ok? ==> r.value.1 == [Send(ConnectCmd, None)]
    ensures r.Ok? ==> var h' := r.value.0;
              && !h'.connected && !h'.accepted && h'.race == Pending
              && h'.messenger.listening && h'.messenger.target == h.messenger.target
              && h'.messenger.targetOrigin == h.messenger.targetOrigin
              && h'.redirect == R.Connect(h.redirect, c, input).value
    ensures r.Ok? ==> var h' := r.value.0;
              h'.win == h.win && h'.sizing == h.sizing && h'.windowClosed == h.windowClosed && h'.args == h.args
    ensures r.Ok? && R.Valid(h.redirect) ==> Valid(r.value.0)
  {
    var redirect :- R.Connect(h.redirect, c, input);
    var m := Listen(h.messenger);
    var sent := SendCommand(m, ConnectCmd, None).value;
    Ok((h.(redirect := redirect, messenger := m, connected := false, accepted := false, race := Pending), [sent]))
  }

  /** A command the messenger has let through: `start` supplies the args, connects the
      host and, if the race is still pending, settles it on this popup host; `close`
      acknowledges the result and disconnects; anything else is ignored. */
  function HandleCommand(h: PopupHost, name: string, payload: Option<Json>): (r: (PopupHost, seq<Effect>))
    ensures name == "start" ==>
              && r.1 == [] && r.0.connected && r.0.args == payload
              && r.0.race == (if h.race == Pending then Settled(PopupStrategy) else h.race)
              && r.0.accepted == h.accepted && r.0.messenger == h.messenger
              && r.0.redirect == h.redirect && r.0.win == h.win
              && r.0.sizing == h.sizing && r.0.windowClosed == h.windowClosed
    ensures name == "close" ==> r == Disconnect(h)
    ensures name != "start" && name != "close" ==> r == (h, [])
  {
    match CommandNamed(name)
    case Some(StartCmd) =>
      var race := if h.race == Pending then Settled(PopupStrategy) else h.race;
      (h.(args := payload, connected := true, race := race), [])
    case Some(CloseCmd) => Disconnect(h)
    case _ => (h, [])
  }

  /** An inbound window message, filtered by the messenger first. */
  function HandleEvent(h: PopupHost, ev: MessageEvent): (r: (PopupHost, seq<Effect>))
    ensures !Admits(h.messenger, ev) ==> r == (h, [])
    ensures Admits(h.messenger, ev) ==>
              r == HandleCommand(h.(messenger := h.messenger.(targetOrigin := Some(ev.origin))),
                                 ev.data.cmd, ev.data.payload)
  {
    var (m, heard) := Channel.HandleEvent(h.messenger, ev);
    match heard
    case None => (h.(messenger := m), [])
    case Some((name, payload)) => HandleCommand(h.(messenger := m), name, payload)
  }

  /** The deadline of the connect race: if `start` has not arrived, `connect` settles
      on the redirect host instead. */
  function Deadline(h: PopupHost): (h': PopupHost)
    ensures h.race == Pending ==> h' == h.(race := Settled(RedirectStrategy))
    ensures h.race != Pending ==> h' == h
  {
    if h.race == Pending then h.(race := Settled(RedirectStrategy)) else h
  }

  /** `disconnect()`: clears both flags, stops the messenger, and tries once to close
      the window; a close that throws is absorbed and leaves the window open. */
  function Disconnect(h: PopupHost): (r: (PopupHost, seq<Effect>))
    ensures !r.0.connected && !r.0.accepted && !r.0.messenger.listening
    ensures r.1 == [StopListening, CloseWindow]
    ensures r.0.windowClosed <==> h.windowClosed || !h.win.closeThrows
    ensures r.0.race == h.race && r.0.redirect == h.redirect && r.0.args == h.args
    ensures r.0.messenger.targetOrigin == h.messenger.targetOrigin
  {
    var closed := if h.win.closeThrows then h.windowClosed else true;
    (h.(connected := false, accepted := false, messenger := Stop(h.messenger), windowClosed := closed),
     [StopListening, CloseWindow])
  }

  /** The messenger's view of the opener. */
  function GetTarget(h: PopupHost): (r: Result<WindowRef>)
    ensures r.Ok? <==> h.messenger.listening
    ensures r.Ok? ==> r.value == h.messenger.target
  {
    Channel.GetTarget(h.messenger)
  }

  /** `getRequestString()`: the serialized request, as the fallback host holds it. */
  function GetRequestString(h: PopupHost, c: Codec): (r: Result<string>)
    ensures !h.connected ==> r == Err(NotConnected)
    ensures Valid(h) && h.connected ==> r == Ok(c.serializeRequest(h.redirect.link.value.request))
  {
    if !h.connected then Err(NotConnected)
    else R.GetRequestString(h.redirect, c)
  }

  /** `getTargetOrigin()`: the origin the `start` command came from. */
  function GetTargetOrigin(h: PopupHost): (r: Result<string>)
    ensures !h.connected ==> r == Err(NotConnected)
    ensures Valid(h) && h.connected ==> r.Ok? && h.messenger.targetOrigin == Some(r.value)
  {
    if !h.connected then Err(NotConnected)
    else Channel.GetTargetOrigin(h.messenger)
  }

  /** The direct channel counts as verified ... */
  function IsTargetOriginVerified(h: PopupHost): (r: Result<bool>)
    ensures r.Ok? <==> h.connected
    ensures r.Ok? ==> r.value
    ensures r.Err? ==> r.error == NotConnected
  {
    if !h.connected then Err(NotConnected)
    else Ok(true)
  }

  /** ... and secure, once connected. */
  function IsSecureChannel(h: PopupHost): (r: Result<bool>)
    ensures r.Ok? <==> h.connected
    ensures r.Ok? ==> r.value
    ensures r.Err? ==> r.error == NotConnected
  {
    if !h.connected then Err(NotConnected)
    else Ok(true)
  }

  /** `getArgs()`: the payload of the `start` command. */
  function GetArgs(h: PopupHost): (r: Result<Option<Json>>)
    ensures r.Ok? <==> h.connected
    ensures r.Ok? ==> r.value == h.args
    ensures r.Err? ==> r.error == NotConnected
  {
    if !h.connected then Err(NotConnected)
    else Ok(h.args)
  }

  /** `accept()`: marks the host accepted and changes nothing else. */
  function Accept(h: PopupHost): (r: Result<PopupHost>)
    ensures r.Ok? <==> h.connected
    ensures r.Ok? ==> r.value == h.(accepted := true)
    ensures r.Ok? && Valid(h) ==> Valid(r.value)
    ensures r.Err? ==> r.error == NotConnected
  {
    if !h.connected then Err(NotConnected)
    else Ok(h.(accepted := true))
  }

  /** `ready()`: one `ready` command. */
  function Ready(h: PopupHost): (r: Result<seq<Effect>>)
    ensures !h.accepted ==> r == Err(NotAccepted)
    ensures Valid(h) && h.accepted ==> r == Ok([Send(ReadyCmd, None)])
  {
    if !h.accepted then Err(NotAccepted)
    else
      var sent :- SendCommand(h.messenger, ReadyCmd, None);
      Ok([sent])
  }

  /** Delivering a result: one `result` command carrying `{code, data}`. The host
      stays connected and accepted until the caller's `close`. */
  function SendResult(h: PopupHost, result: ActivityResult): (r: Result<seq<Effect>>)
    ensures !h.accepted ==> r == Err(NotAccepted)
    ensures Valid(h) && h.accepted ==> r == Ok([Send(ResultCmd, Some(ResultPayload(result)))])
  {
    if !h.accepted then Err(NotAccepted)
    else
      var sent :- SendCommand(h.messenger, ResultCmd, Some(ResultPayload(result)));
      Ok([sent])
  }

  /** `result(data)`: one `result` command carrying `{code: 'ok', data}`. */
  function Succeed(h: PopupHost, data: Json): (r: Result<seq<Effect>>)
    ensures !h.accepted ==> r == Err(NotAccepted)
    ensures Valid(h) && h.accepted ==>
              r == Ok([Send(ResultCmd, Some(JObj([("code", JStr("ok")), ("data", data)])))])
  {
    SendResult(h, OkResult(data))
  }

  /** `cancel()`: one `result` command carrying `{code: 'canceled', data: null}`. */
  function Cancel(h: PopupHost): (r: Result<seq<Effect>>)
    ensures !h.accepted ==> r == Err(NotAccepted)
    ensures Valid(h) && h.accepted ==>
              r == Ok([Send(ResultCmd, Some(JObj([("code", JStr("canceled")), ("data", JNull)])))])
  {
    SendResult(h, CanceledResult())
  }

  /** `failed(reason)`: one `result` command carrying `{code: 'failed', data}` with the
      reason's string form as data. */
  function Failed(h: PopupHost, reason: Reason): (r: Result<seq<Effect>>)
    ensures !h.accepted ==> r == Err(NotAccepted)
    ensures Valid(h) && h.accepted ==>
              r == Ok([Send(ResultCmd, Some(JObj([("code", JStr("failed")), ("data", JStr(ReasonText(reason)))])))])
  {
    SendResult(h, FailedResult(reason))
  }

  /** What may happen to a popup host while `connect` is outstanding and after. */
  datatype Event = Inbound(ev: MessageEvent) | DeadlineElapsed

  function Step(h: PopupHost, e: Event): PopupHost {
    match e
    case Inbound(ev) => HandleEvent(h, ev).0
    case DeadlineElapsed => Deadline(h)
  }

  function Run(h: PopupHost, es: seq<Event>): PopupHost
    decreases |es|
  {
    if |es| == 0 then h else Run(Step(h, es[0]), es[1..])
  }

  /** Every inbound event and the deadline keep `Valid`. */
  lemma StepKeepsValid(h: PopupHost, e: Event)
    requires Valid(h)
    ensures Valid(Step(h, e))
  {
  }

  /** One step moves the race at most once, and only out of `Pending`. */
  lemma StepSettlesAtMostOnce(h: PopupHost, e: Event)
    ensures Step(h, e).race == h.race || (h.race == Pending && Step(h, e).race.Settled?)
  {
  }

  /** Once settled, the race outcome survives any later messages (another `start`,
      a `close`, spoofed traffic) and the deadline. */
  lemma {:induction false} RaceSettlesOnce(h: PopupHost, es: seq<Event>)
    requires h.race.Settled?
    ensures Run(h, es).race == h.race
    decreases |es|
  {
    if |es| > 0 {
      StepSettlesAtMostOnce(h, es[0]);
      RaceSettlesOnce(Step(h, es[0]), es[1..]);
    }
  }

  /** Right after `connect` on a fresh host, before any `start`: the messenger reports
      the opener but no caller origin, the host's accessors still fail with
      `not connected`, exactly one `connect` command has gone out, and the race waits. */
  lemma ConnectBeforeStart(win: Window, opener: WindowRef, c: Codec, input: ConnectInput)
    requires R.Connect(R.NewRedirectHost(win), c, input).Ok?
    ensures var r := Connect(NewPopupHost(win, opener), c, input);
            && r.Ok?
            && r.value.1 == [Send(ConnectCmd, None)]
            && GetTarget(r.value.0) == Ok(opener)
            && Channel.GetTargetOrigin(r.value.0.messenger) == Err(NotConnected)
            && IsTargetOriginVerified(r.value.0) == Err(NotConnected)
            && GetArgs(r.value.0) == Err(NotConnected)
            && !r.value.0.connected && r.value.0.race == Pending
  {
  }

  /** A sentinel-tagged `start` that reaches a pending host first wins the race:
      `connect` settles on this popup host, which is now connected to the message's
      origin, verified and secure, with the `start` payload as its args; nothing is
      sent in reply. */
  lemma StartWinsRace(h: PopupHost, origin: string, payload: Option<Json>)
    requires Valid(h) && h.race == Pending && h.messenger.listening && h.messenger.targetOrigin.None?
    ensures var r := HandleEvent(h, MessageEvent(origin, Tagged(Sentinel, "start", payload)));
            && r.1 == []
            && r.0.race == Settled(PopupStrategy)
            && r.0.connected && !r.0.accepted
            && Valid(r.0)
            && GetTargetOrigin(r.0) == Ok(origin)
            && IsTargetOriginVerified(r.0) == Ok(true)
            && IsSecureChannel(r.0) == Ok(true)
            && GetArgs(r.0) == Ok(payload)
            && r.0.redirect == h.redirect
  {
    assert h.accepted == false;
  }

  /** End to end: a fresh popup host connected with a request object, then sent the
      caller's `start`, reports the serialized request, the origin the `start` came
      from, a verified and secure channel, and the `start` payload as its args; and
      `connect` has settled on the popup. */
  lemma ConnectThenStart(win: Window, opener: WindowRef, c: Codec, request: Request,
                         origin: string, payload: Option<Json>)
    requires UrlOrigin(request.returnUrl).Some?
    ensures Connect(NewPopupHost(win, opener), c, FromObject(request)).Ok?
    ensures var h := Connect(NewPopupHost(win, opener), c, FromObject(request)).value.0;
            var h' := HandleEvent(h, MessageEvent(origin, Tagged(Sentinel, "start", payload))).0;
            && GetRequestString(h', c) == Ok(c.serializeRequest(request))
            && GetTargetOrigin(h') == Ok(origin)
            && IsTargetOriginVerified(h') == Ok(true)
            && IsSecureChannel(h') == Ok(true)
            && GetArgs(h') == Ok(payload)
            && h'.race == Settled(PopupStrategy)
  {
    var h0 := NewPopupHost(win, opener);
    assert R.Valid(h0.redirect);
    var h := Connect(h0, c, FromObject(request)).value.0;
    assert Valid(h);
    StartWinsRace(h, origin, payload);
  }

  /** The deadline reached while still pending settles `connect` on the embedded
      redirect host, which is already connected to the same request. */
  lemma DeadlineWinsRace(h: PopupHost)
    requires Valid(h) && h.race == Pending
    ensures Deadline(h).race == Settled(RedirectStrategy)
    ensures R.Connected(Deadline(h).redirect) && Deadline(h).redirect == h.redirect
  {
  }

  /** The deadline leaves the messenger listening, so a `start` that arrives after it
      still connects this popup host; the race stays settled on the redirect host, and
      a `close` from the caller then stops the messenger and closes the window. */
  lemma LateStartAfterDeadline(h: PopupHost, origin: string, payload: Option<Json>)
    requires Valid(h) && h.race == Pending && h.messenger.listening && h.messenger.targetOrigin.None?
    ensures var late := HandleEvent(Deadline(h), MessageEvent(origin, Tagged(Sentinel, "start", payload))).0;
            && late.connected && late.race == Settled(RedirectStrategy)
            && HandleEvent(late, MessageEvent(origin, Tagged(Sentinel, "close", None))).1 == [StopListening, CloseWindow]
  {
    var late := HandleEvent(Deadline(h), MessageEvent(origin, Tagged(Sentinel, "start", payload))).0;
    assert late.messenger.targetOrigin == Some(origin);
  }

  /** A `close` from the caller's origin disconnects exactly once: the outcome is
      precisely that of `disconnect()`, one messenger stop and one close attempt. */
  lemma CloseDisconnects(h: PopupHost, payload: Option<Json>)
    requires Valid(h) && h.connected
    ensures var origin := h.messenger.targetOrigin.value;
            HandleEvent(h, MessageEvent(origin, Tagged(Sentinel, "close", payload))) == Disconnect(h)
  {
  }

  /** A close attempt that throws changes nothing but whether the window ended up
      closed: same flags, same effects, no failure. */
  lemma DisconnectAbsorbsCloseFailure(h: PopupHost)
    ensures var a := Disconnect(h.(win := h.win.(closeThrows := true)));
            var b := Disconnect(h.(win := h.win.(closeThrows := false)));
            && a.1 == b.1
            && a.0.(windowClosed := true, win := h.win) == b.0.(win := h.win)
            && b.0.windowClosed
            && a.0.windowClosed == h.windowClosed
  {
  }
}

=== FILE: redirect.dfy ===
/** The redirect host: the strategy for a dialog that has no live channel back to its
    caller. It reads the request from its connect input or its own location fragment,
    never vouches for the caller's origin, ignores `ready`, and delivers a result by
    navigating to the return URL once. */
module Redirect {
  import opened Base
  import opened Json
  import opened Envelope
  import opened Lifecycle

  /** The connection of a connected host: the request, the caller's origin derived from
      its return URL, and whether the activity has been accepted. */
  datatype Link = Link(request: Request, targetOrigin: string, accepted: bool)

  /** `link` is present exactly while the host is connected. */
  datatype RedirectHost = RedirectHost(win: Window, link: Option<Link>, sizing: Sizing)

  function NewRedirectHost(win: Window): RedirectHost {
    RedirectHost(win, None, NoSizing)
  }

  predicate Connected(h: RedirectHost) {
    h.link.Some?
  }

  predicate Accepted(h: RedirectHost) {
    h.link.Some? && h.link.value.accepted
  }

  /** A connected host's caller origin is the origin of its request's return URL. */
  predicate Valid(h: RedirectHost) {
    h.link.Some? ==> UrlOrigin(h.link.value.request.returnUrl) == Some(h.link.value.targetOrigin)
  }

  /** `connect(input)`: resolves the request (from the input, or from the window's
      location fragment when there is none) and connects, not yet accepted, with the
      return URL's origin as the caller's origin. An input that does not resolve to a
      request with an absolute return URL is a malformed request. */
  function Connect(h: RedirectHost, c: Codec, input: ConnectInput): (r: Result<RedirectHost>)
    ensures var request := ResolveRequest(c, input, h.win.locationHash);
            r.Ok? <==> request.Ok? && UrlOrigin(request.value.returnUrl).Some?
    ensures r.Ok? ==> Connected(r.value) && !Accepted(r.value)
    ensures r.Ok? ==> r.value.link.value.request == ResolveRequest(c, input, h.win.locationHash).value
    ensures r.Ok? ==> r.value.win == h.win && r.value.sizing == h.sizing
    ensures r.Ok? ==> Valid(r.value)
    ensures r.Err? ==> r.error == MalformedRequest
  {
    var request :- ResolveRequest(c, input, h.win.locationHash);
    match UrlOrigin(request.returnUrl)
    case None => Err(MalformedRequest)
    case Some(origin) => Ok(h.(link := Some(Link(request, origin, false))))
  }

  /** Each way a connect input can be malformed fails the connect: a string that does
      not parse, a location fragment without a request parameter, and a request whose
      return URL has no origin. */
  lemma MalformedInputsFail(h: RedirectHost, c: Codec, text: string, request: Request)
    ensures c.parseRequest(text).None? ==> Connect(h, c, FromString(text)) == Err(MalformedRequest)
    ensures LookupParam(FragmentParams(h.win.locationHash), RequestKey).None? ==>
              Connect(h, c, FromLocation) == Err(MalformedRequest)
    ensures UrlOrigin(request.returnUrl).None? ==> Connect(h, c, FromObject(request)) == Err(MalformedRequest)
  {
  }

  /** `getRequestString()`: the request in its serialized form. */
  function GetRequestString(h: RedirectHost, c: Codec): (r: Result<string>)
    ensures r.Ok? <==> Connected(h)
    ensures r.Ok? ==> r.value == c.serializeRequest(h.link.value.request)
    ensures r.Err? ==> r.error == NotConnected
  {
    if !Connected(h) then Err(NotConnected)
    else Ok(c.serializeRequest(h.link.value.request))
  }

  function GetTargetOrigin(h: RedirectHost): (r: Result<string>)
    ensures r.Ok? <==> Connected(h)
    ensures r.Ok? ==> r.value == h.link.value.targetOrigin
    ensures r.Err? ==> r.error == NotConnected
  {
    if !Connected(h) then Err(NotConnected)
    else Ok(h.link.value.targetOrigin)
  }

  /** Without a return channel the caller's origin is never verified. */
  function IsTargetOriginVerified(h: RedirectHost): (r: Result<bool>)
    ensures r.Ok? <==> Connected(h)
    ensures r.Ok? ==> !r.value
    ensures r.Err? ==> r.error == NotConnected
  {
    if !Connected(h) then Err(NotConnected)
    else Ok(false)
  }

  /** ... and the channel is never secure. */
  function IsSecureChannel(h: RedirectHost): (r: Result<bool>)
    ensures r.Ok? <==> Connected(h)
    ensures r.Ok? ==> !r.value
    ensures r.Err? ==> r.error == NotConnected
  {
    if !Connected(h) then Err(NotConnected)
    else Ok(false)
  }

  function GetArgs(h: RedirectHost): (r: Result<Option<Json>>)
    ensures r.Ok? <==> Connected(h)
    ensures r.Ok? ==> r.value == h.link.value.request.args
    ensures r.Err? ==> r.error == NotConnected
  {
    if !Connected(h) then Err(NotConnected)
    else Ok(h.link.value.request.args)
  }

  /** `accept()`: marks the connection accepted and changes nothing else. */
  function Accept(h: RedirectHost): (r: Result<RedirectHost>)
    ensures r.Ok? <==> Connected(h)
    ensures r.Ok? ==> Accepted(r.value)
    ensures r.Ok? ==> r.value.link.value.request == h.link.value.request
    ensures r.Ok? ==> r.value.link.value.targetOrigin == h.link.value.targetOrigin
    ensures r.Ok? ==> r.value.win == h.win && r.value.sizing == h.sizing
    ensures r.Ok? ==> (Valid(r.value) <==> Valid(h))
    ensures r.Err? ==> r.error == NotConnected
  {
    if !Connected(h) then Err(NotConnected)
    else Ok(h.(link := Some(h.link.value.(accepted := true))))
  }

  /** `ready()`: nothing to signal over; only the guard remains. */
  function Ready(h: RedirectHost): (r: Result<seq<Effect>>)
    ensures r.Ok? <==> Accepted(h)
    ensures r.Ok? ==> r.value == []
    ensures r.Err? ==> r.error == NotAccepted
  {
    if !Accepted(h) then Err(NotAccepted)
    else Ok([])
  }

  /** Delivering a result: one navigation to the return URL carrying the request id,
      this window's origin, and the result's code and data. The host stays connected
      and accepted. */
  function SendResult(h: RedirectHost, c: Codec, result: ActivityResult): (r: Result<seq<Effect>>)
    ensures r.Ok? <==> Accepted(h)
    ensures r.Ok? ==> |r.value| == 1 && r.value[0].Navigate?
    ensures r.Ok? ==> h.link.value.request.returnUrl <= r.value[0].url
    ensures r.Err? ==> r.error == NotAccepted
  {
    if !Accepted(h) then Err(NotAccepted)
    else
      var request := h.link.value.request;
      Ok([Navigate(ResultUrl(c, request.returnUrl, ResponsePayload(request.requestId, h.win.origin, result)))])
  }

  /** The URL the caller expects a result with wire code `code` and `data` to arrive
      at: the return URL with `__WA_RES__` bound to the escaped JSON
      `{requestId, origin, code, data}`. */
  function ExpectedReturnUrl(h: RedirectHost, c: Codec, code: string, data: Json): string
    requires Connected(h)
  {
    var request := h.link.value.request;
    var response := JObj([("requestId", JStr(request.requestId)), ("origin", JStr(h.win.origin)),
                          ("code", JStr(code)), ("data", data)]);
    WithFragmentParam(request.returnUrl, ResultKey + "=" + c.encodeComponent(c.stringify(response)))
  }

  /** `result(data)`: one navigation carrying code 'ok' and the data. */
  function Succeed(h: RedirectHost, c: Codec, data: Json): (r: Result<seq<Effect>>)
    ensures r.Ok? <==> Accepted(h)
    ensures r.Err? ==> r.error == NotAccepted
    ensures r.Ok? ==> r.value == [Navigate(ExpectedReturnUrl(h, c, "ok", data))]
  {
    SendResult(h, c, OkResult(data))
  }

  /** `cancel()`: one navigation carrying code 'canceled' and null. */
  function Cancel(h: RedirectHost, c: Codec): (r: Result<seq<Effect>>)
    ensures r.Ok? <==> Accepted(h)
    ensures r.Err? ==> r.error == NotAccepted
    ensures r.Ok? ==> r.value == [Navigate(ExpectedReturnUrl(h, c, "canceled", JNull))]
  {
    SendResult(h, c, CanceledResult())
  }

  /** `failed(reason)`: one navigation carrying code 'failed' and the reason's string
      form. */
  function Failed(h: RedirectHost, c: Codec, reason: Reason): (r: Result<seq<Effect>>)
    ensures r.Ok? <==> Accepted(h)
    ensures r.Err? ==> r.error == NotAccepted
    ensures r.Ok? ==> r.value == [Navigate(ExpectedReturnUrl(h, c, "failed", JStr(ReasonText(reason))))]
  {
    SendResult(h, c, FailedResult(reason))
  }

  /** `disconnect()`: drops the connection (both flags clear) and leaves the window
      alone: this host is the window's own navigation. */
  function Disconnect(h: RedirectHost): (r: (RedirectHost, seq<Effect>))
    ensures !Connected(r.0) && !Accepted(r.0) && Valid(r.0)
    ensures r.0.win == h.win && r.0.sizing == h.sizing
    ensures r.1 == []
  {
    (h.(link := None), [])
  }

  /** After connecting from any of the three input forms, the accessors report the
      request's serialized form, the scheme and host of its return URL as the caller's
      origin, no verification, no secure channel, and the request's args; the host is
      connected and not accepted. */
  lemma ConnectReportsRequest(h: RedirectHost, c: Codec, request: Request, origin: string)
    requires Lawful(c)
    requires UrlOrigin(request.returnUrl) == Some(origin)
    ensures forall input | input in {FromObject(request), FromString(c.serializeRequest(request))} ::
              ConnectedTo(Connect(h, c, input), c, request, origin)
    ensures ConnectedTo(Connect(h.(win := h.win.(locationHash := RequestFragment(c, request))), c, FromLocation),
                        c, request, origin)
  {
    InputFormsAgree(c, request, h.win.locationHash);
    InputFormsAgree(c, request, RequestFragment(c, request));
  }

  /** The observable state right after a successful connect for `request`. */
  ghost predicate ConnectedTo(r: Result<RedirectHost>, c: Codec, request: Request, origin: string) {
    && r.Ok?
    && Connected(r.value) && !Accepted(r.value)
    && GetRequestString(r.value, c) == Ok(c.serializeRequest(request))
    && GetTargetOrigin(r.value) == Ok(origin)
    && IsTargetOriginVerified(r.value) == Ok(false)
    && IsSecureChannel(r.value) == Ok(false)
    && GetArgs(r.value) == Ok(request.args)
  }

  /** After `accept`, each of `result`, `cancel` and `failed` performs exactly one
      navigation, to the return URL's origin, and the caller reading that URL recovers
      the request id, this window's origin, and the code and data the call stands for. */
  lemma ResultNavigationReadsBack(h: RedirectHost, c: Codec, result: ActivityResult)
    requires Lawful(c) && Accepted(h) && Valid(h)
    requires var returnUrl := h.link.value.request.returnUrl;
             Fragment(returnUrl).Some? ==> LookupParam(Fragment(returnUrl).value, ResultKey) == None
    ensures SendResult(h, c, result).Ok?
    ensures |SendResult(h, c, result).value| == 1
    ensures ReadResultUrl(c, SendResult(h, c, result).value[0].url)
              == Some(ResponsePayload(h.link.value.request.requestId, h.win.origin, result))
    ensures ReadResult(ReadResultUrl(c, SendResult(h, c, result).value[0].url).value) == Some(result)
    ensures UrlOrigin(SendResult(h, c, result).value[0].url) == Some(h.link.value.targetOrigin)
  {
    var request := h.link.value.request;
    var response := ResponsePayload(request.requestId, h.win.origin, result);
    var url := ResultUrl(c, request.returnUrl, response);
    assert SendResult(h, c, result) == Ok([Navigate(url)]);
    ResultUrlRoundTrip(c, request.returnUrl, response);
    ResultUrlSameOrigin(c, request.returnUrl, response);
    ResultPayloadsReadBack(result, request.requestId, h.win.origin);
  }
}
